=== FILE: README.md ===
# validations.js in Dafny

This project models the form-validation jQuery plugin in `validations.js`. It covers four parts:

- **The rule registry.** Five regular-expression rules (`alphabeticWithSpace`, `validEmail`, `allowedCharacters`, `validName`, `validMobile`). Two date-range rules (`greaterThan`, `lessThan`). The `validAmount` rule.
- **`validateInput`.** How a field's rule tokens such as `"greaterThan[startDate]"` are parsed, looked up and combined into a verdict. How `showError` writes the single error annotation after the field.
- **The form-level event handling.** Submit, blur, keyup with its 300 ms debounce timer, the date picker's `datepickerSelect` event, and the `input` event that runs a sanitizer.
- **The three live sanitizers.** `validName`, `validEmail` and `validAmount`, which rewrite (or, for amounts, only inspect) a value while it is typed.

The model is made of pure functions over immutable data:

| Module | What it holds |
|---|---|
| `Wrappers` | The `Option` type. |
| `Chars` | Character classes. `IsSpace` is the ECMAScript `\s` set, which is also what `String.prototype.trim` strips. |
| `Strings` | Models of the JavaScript string built-ins the code relies on: `replace` with a character class, `split`, `trim`, and `replace` of a first occurrence. The last two rest on a first-occurrence search. |
| `Patterns` | One predicate per regular-expression rule. |
| `Amount` | `validAmount`, using exact decimal arithmetic. |
| `Dates` | The date-range rules. |
| `Rules` | Token parsing, dispatch, `showError` and `validateInput`. |
| `Sanitizers` | The three sanitizers and how the second rule token picks one. |
| `Form` | The submit, blur, keyup, timer, date-picker and input events as steps of a state machine. |

A field's error elements are a sequence of messages, nearest first. `showError` rewrites the nearest one or inserts one. Handlers remove the nearest one with `input.next(".error-message").remove()`.

Dates are not parsed here. The caller supplies a parse function, from a field's text to a point on a time line or to an invalid date.

## Model

| member | source | states |
|---|---|---|
| `Patterns.AlphabeticWithSpace` | validations.js:3 | Definition: a non-empty value of letters and whitespace only. |
| `Patterns.ValidEmail` | validations.js:4 | Definition: a non-empty local part of `[a-zA-Z0-9._%+-]`, an `@`, a non-empty host of `[a-zA-Z0-9.-]`, a dot and a label of at least two letters. |
| `Patterns.AllowedCharacters` | validations.js:5 | Definition: a non-empty value of letters, digits, whitespace and the listed punctuation only. |
| `Patterns.ValidName` | validations.js:6 | Definition: up to thirty words of letters separated by single whitespace characters, with at most one trailing whitespace character. |
| `Patterns.ValidMobile` | validations.js:7 | Definition: ten ASCII digits, the first not 0, and not one digit repeated throughout. |
| `Patterns.ValidNameIff` | validations.js:6 | Up to sixty characters, the name pattern accepts a value exactly when the value starts with a letter, has only letters and whitespace, and never has two whitespace characters in a row. |
| `Patterns.NameFromShape` | validations.js:6 | Whatever the word-by-word name pattern accepts starts with a letter, has only letters and whitespace, and has no two adjacent whitespace characters. |
| `Patterns.NameFromOfShape` | validations.js:6 | The converse. Such a string matches when it fits the word budget: `n` further words need at most `2n + 2` characters. |
| `Patterns.ValidEmailShape` | validations.js:4 | An address the email pattern accepts has exactly one `@` and no whitespace. |
| `Patterns.ValidMobileExamples` | validations.js:7 | `9876543210` is accepted. `0123456789` (leading zero) and `5555555555` (one repeated digit) are not. |
| `Patterns.ValidMobileIff` | validations.js:7 | The mobile pattern says the same as: ten digits, a first digit other than 0, and some digit different from the first. |
| `Patterns.ValidNameIsAlphabetic` | validations.js:3-6 | Every value `validName` accepts is accepted by `alphabeticWithSpace`. |
| `Patterns.AlphabeticIsAllowed` | validations.js:3-5 | Every value `alphabeticWithSpace` accepts is accepted by `allowedCharacters`. |
| `Strings.Filter` | validations.js:41 | `replace(/[^class]/g, "")` keeps only accepted characters, never lengthens the string, and leaves a string of accepted characters as it is. |
| `Strings.IndexOf` | validations.js:197-199 | The first-occurrence search behind `split("[")` and `replace("]", "")`: the position of the first occurrence, with no occurrence before it, or the length exactly when there is none. |
| `Strings.RemoveFirst` | validations.js:199 | `replace("]", "")` removes the first occurrence only, and leaves a string without one unchanged. |
| `Strings.Split` | validations.js:197 | `split` yields at least one part, and no part holds the separator. Joining the parts with the separator gives back the input. |
| `Strings.SplitCount` | validations.js:293 | A string splits into one more part than it holds separators. |
| `Strings.Trim` | validations.js:180 | The trimmed value is a contiguous slice of the input. Only whitespace was removed, and neither end of the result is whitespace. |
| `Strings.TrimEmpty` | validations.js:187 | A value trims to the empty string exactly when it is all whitespace. |
| `Strings.TrimIdempotent` | validations.js:180-187 | Trimming twice is trimming once, so the second `trim()` in the `required` test changes nothing. |
| `Amount.Segments` | validations.js:41-46 | The integer part and the decimal part are both digit strings. |
| `Amount.CheckSegments` | validations.js:49-77 | Definition: the rule's checks in the source's order: more than 15 integer digits, no digits at all, not positive, more than 2 decimals, above 999999999999999. |
| `Amount.CheckAmount` | validations.js:39-85 | Definition: the checks applied to the value's integer and decimal segments. |
| `Amount.ValidAmount` | validations.js:39-85 | Definition: the rule returns true exactly when every check passes. |
| `Amount.DigitsValueBound` | validations.js:49 | `n` digits denote a number below `10^n`. |
| `Amount.ValidAmountIffCents` | validations.js:39-85 | The rule accepts a value exactly when its integer part has at most 15 digits, its decimal part has at most 2, and the amount, counted in hundredths, is above zero and at most 999999999999999. |
| `Amount.ValidAmountIgnoresOtherChars` | validations.js:41 | Characters outside `[0-9.]` never affect the verdict. |
| `Amount.ValidAmountIgnoresThirdSegment` | validations.js:44-46 | Anything from a second dot on is ignored. |
| `Amount.CheckDotted` | validations.js:44-55 | A value `i.d` made of digit strings is judged on exactly that integer part and decimal part. |
| `AmountExamples.RejectsThreeDecimals` | validations.js:68-70 | `12.345` is rejected for having three decimals. |
| `AmountExamples.RejectsZero` | validations.js:63-65 | `0` is rejected as not positive. |
| `AmountExamples.AcceptsHundredFifty` | validations.js:39-85 | `100.50` is accepted. |
| `AmountExamples.RejectsSixteenDigits` | validations.js:49-51 | A 16-digit integer part is rejected. |
| `AmountExamples.NinesWithFractionAboveMaximum` | validations.js:73-77 | Fifteen nines followed by any non-zero fraction of at most two digits is above the maximum. |
| `AmountExamples.WholeAmountNeverAboveMaximum` | validations.js:49-77 | Without a decimal part, an integer part that passes the 15-digit check is never above the maximum. |
| `AmountExamples.RejectsJustAboveMaximum` | validations.js:73-77 | `999999999999999.01` is above the maximum. |
| `Dates.CheckDateOrder` | validations.js:8-38 | An empty value, an empty referenced value, or a missing referenced element passes. Otherwise the rule passes exactly when the dates are in the required order. The field is emptied exactly when the rule fails. |
| `Dates.DateRulesAgree` | validations.js:8-38 | `greaterThan[from]` on the end date gives the same outcome as `lessThan[to]` on the start date. |
| `Dates.InvalidDateFails` | validations.js:13-20 | A value that does not parse as a date fails against any non-empty value, and the field is emptied. |
| `Dates.SameDatePasses` | validations.js:16-17 | The comparisons are not strict: a date compared with itself passes. |
| `Rules.Registry` | validations.js:100-101 | The registry holds the built-in names plus the registered ones. A registered rule replaces a built-in rule of the same name, and every built-in rule not registered again is kept as it was. |
| `Rules.LookupById` | validations.js:9 | The referenced element is found exactly when some element has the parameter as its id. A missing parameter looks up the id `undefined`. The value read is that element's value. |
| `Rules.ParseToken` | validations.js:197-199 | The name is everything before the first `[`. The parameter exists exactly when the token has a `[`. It is the text between the first and second `[` with its first `]` removed. |
| `Rules.ParsePlainToken` | validations.js:197-199 | A token without `[` is all name and has no parameter. |
| `Rules.ParseParameterToken` | validations.js:197-199 | `name[param]` parses into exactly that name and parameter. |
| `Rules.SplitAtFirst` | validations.js:197 | `split` cuts at the first separator, and leaves a string without one whole. |
| `Rules.CallRule` | validations.js:202-208 | A date-range rule gives the date comparison against the referenced element's value. The amount rule gives the amount check on the value. A registered function gives its own answer on the value and the parameter. Only a date-range rule can empty the field, and only when it fails. |
| `Rules.CheckToken` | validations.js:200-225 | A token is checked exactly when its name finds a function rule, or the whole token finds a pattern rule. A function rule's check is that rule's outcome, under the token's name. A pattern rule's check is the pattern's answer on the value, under the whole token, and never empties the field. A checked token that empties the field has failed. |
| `Rules.PatternTokenWithParameterSkipped` | validations.js:216-218 | A pattern token that has a parameter, such as `validEmail[x]`, is never checked against the built-in rules. |
| `Rules.BracketFunctionTokenSkipped` | validations.js:200-225 | A token that names a registered function only as a whole, because its name holds a `[`, is skipped when the part before the `[` names no function. |
| `Rules.RequiredTokenSkipped` | validations.js:196-226 | When no rule is registered under the name `required`, that token is passed over on a non-blank value like any unknown name. |
| `Rules.MessageFor` | validations.js:192-193 | Uses the configured message when it exists and is not empty. Otherwise uses the fallback. |
| `Rules.ShowError` | validations.js:157-165 | The nearest error element gets the message. A new element is inserted only when there was none. The others stay as they are. |
| `Rules.ShowErrorOverwrites` | validations.js:157-165 | Showing a second error overwrites the first, and never leaves two annotations behind one. |
| `Rules.CheckAll` | validations.js:196-226 | Every token is checked against the same trimmed value, in order. |
| `Rules.LastFailure` | validations.js:209-225 | Finds the last failing check: none exactly when no check fails, and otherwise a failing position with no failure after it. |
| `Rules.ShowFailures` | validations.js:196-226 | The loop is valid exactly when no check fails. The message left standing is the last failure's. The field is emptied exactly when some failing check empties it. |
| `Rules.ValidateInput` | validations.js:179-230 | With no rule entry the field is valid and untouched. A blank value fails with the required message under `required`, and otherwise passes without consulting any rule. A non-blank value is valid exactly when no token's check fails. A valid field keeps its errors, and an invalid one ends with one message in the nearest slot. |
| `Rules.ValidateInputClears` | validations.js:196-226 | On a non-blank value the field is emptied exactly when some token's check fails and empties it. |
| `Rules.CheckAllClears` | validations.js:196-226 | Some check empties the field exactly when some token's own check fails and empties it. |
| `Rules.SingleTokenVerdict` | validations.js:179-230 | A field with one token, on a non-blank value, is valid exactly when that token's check does not fail. It is emptied exactly when that check fails and empties it. |
| `Rules.BuiltinPatternTokenVerdict` | validations.js:2-7 | A built-in pattern as a field's only token, not registered again, makes a non-blank field valid exactly when the pattern matches the trimmed value. The field is never emptied. |
| `Rules.ValidEmailTokenVerdict` | validations.js:4 | When `validEmail` is not registered again, `rules: ["validEmail"]` makes a non-blank field valid exactly when the trimmed value matches the email pattern. |
| `Rules.PlainRuleTokenVerdict` | validations.js:200-215 | A field whose only token names a function rule, with no parameter, gets that rule's outcome on the trimmed value. |
| `Rules.AmountTokenVerdict` | validations.js:39-84 | When `validAmount` is not registered again, `rules: ["validAmount"]` makes a non-blank field valid exactly when the amount check accepts the trimmed value. The field is never emptied. |
| `Rules.DateTokenOutOfOrder` | validations.js:8-38 | With any registry in which the name is a date-range rule: a field whose one token is `name[id]`, whose non-blank date is out of order with the non-empty value of the element with that id, fails and is emptied. |
| `Rules.DateTokenVerdict` | validations.js:8-38 | When the rule is not registered again and the id holds no bracket, `greaterThan[id]` or `lessThan[id]` as a field's only token makes a non-blank field valid exactly when the date comparison against the element with that id passes. The field is emptied exactly when it fails. |
| `Rules.ValidateInputShowsLastFailure` | validations.js:209-225 | When a non-blank value fails, the message shown belongs to the last failing token, looked up under the key that token was checked by, falling back to "Invalid value". |
| `Rules.BlankValueConsultsNoRule` | validations.js:187-195 | A blank value's verdict does not depend on the registry or the page. |
| `Rules.UnknownTokenIgnored` | validations.js:216-219 | Appending a token other than `required` that is unknown to the registry changes nothing. |
| `Sanitizers.CollapseSpaces` | validations.js:256 | After collapsing, no two whitespace characters are adjacent. The first character is whitespace exactly when it was before. |
| `Sanitizers.CollapseAppend` | validations.js:256 | Text that ends in a non-whitespace character collapses independently of what follows it. |
| `Sanitizers.CollapseRun` | validations.js:256 | A run of two or more whitespace characters between words becomes exactly one space, and the text on either side collapses on its own. |
| `Sanitizers.CollapseKeepsText` | validations.js:256 | Collapsing whitespace never changes the non-whitespace text. |
| `Sanitizers.CollapseIdentity` | validations.js:256 | A string with no two adjacent whitespace characters is left as it is. |
| `Sanitizers.SanitizeName` | validations.js:248-274 | The name sanitizer leaves only letters and single whitespace characters, at most 60 of them. Its letters are the input's letters in order, and all of them when the input's letters and whitespace fit in 60 characters. The caret keeps its distance from the end of the value, that is, it moves left by as many characters as were removed, and it stops at 0. It stays between 0 and the end of the new value. |
| `Sanitizers.CleanNameUnchanged` | validations.js:248-274 | A value of letters and single whitespace characters that fits in 60 characters is kept as it is, caret included. |
| `Sanitizers.SanitizeNameIdempotent` | validations.js:248-274 | Sanitizing a sanitized name changes neither the value nor the caret. |
| `Sanitizers.SanitizedNameMatchesPattern` | validations.js:248-274 | A sanitized name passes the `validName` pattern exactly when it starts with a letter. |
| `Sanitizers.SanitizeEmail` | validations.js:276-285 | The email sanitizer's result has no whitespace, is a prefix of the input's non-whitespace text, and has exactly the length of that text capped at 30. |
| `Sanitizers.SanitizeEmailIdempotent` | validations.js:276-285 | Sanitizing a sanitized address changes nothing. |
| `Sanitizers.ValidEmailUntouched` | validations.js:276-285 | An address the email pattern accepts that fits in 30 characters is never rewritten. |
| `Sanitizers.SanitizeAmount` | validations.js:287-298 | The amount sanitizer never changes the field. The string it logs holds only digits and at most one dot, and keeps every digit of the input in order. |
| `Sanitizers.SanitizerFor` | validations.js:172-174 | The second rule token, taken whole, picks the sanitizer. A list with fewer than two tokens picks none. |
| `Sanitizers.Sanitize` | validations.js:167-176 | The amount sanitizer returns what was typed. No sanitizer lengthens the value. |
| `Form.FirstWithId` | validations.js:9 | Finds the first input with the given id, or reports that there is none. |
| `Form.Ids` | validations.js:9 | An id is known exactly when some input carries it, and it reads the value of the first such input. |
| `Form.ValidateField` | validations.js:179-230 | Validating one input changes no other input. The input ends exactly as `validateInput` leaves it, judged against the form's current values, and the result is that verdict. A pass leaves its errors alone. A failure leaves exactly one error element in the nearest slot. |
| `Form.RemoveNearestError` | validations.js:148 | Removing the nearest error touches only that input, and drops exactly its first error element. An input with at most one error element ends with none. |
| `Form.ClearErrors` | validations.js:111 | Every error element of the form is removed, and nothing else about any input changes. |
| `Form.ValidateFrom` | validations.js:113-117 | Starting with no errors, each input ends with at most one, and the loop succeeds exactly when none is left. That every input is validated is stated by `Form.ValidateFromInTurn`. |
| `Form.ValidateFromInTurn` | validations.js:113-117 | Every input is validated in document order against the form as the inputs before it left it, and ends exactly as `validateInput` leaves it. The loop succeeds exactly when every input passed at its turn. |
| `Form.OnSubmit` | validations.js:108-123 | `success` is called exactly once when, after validation, no input has an error. Otherwise it is not called. Every input then has at most one error element, and the timer is untouched. |
| `Form.SubmitValidatesEveryInput` | validations.js:111-117 | Each input, with its errors removed, ends exactly as `validateInput` leaves it when judged against the form as the inputs before it left it. |
| `Form.SubmitSucceedsIffEveryInputPasses` | validations.js:113-122 | `success` is called exactly when every input passes its rules at its turn. |
| `Form.Revalidate` | validations.js:128-129 | The input loses its nearest error element and ends exactly as `validateInput` then leaves it. No other input changes, and an input with at most one error element still has at most one. |
| `Form.Annotated` | validations.js:18 | An input after `validateInput` carries the verdict's error elements. Its value is emptied exactly when a failing date-range rule emptied it, and is kept otherwise. Name, id and blur mark are unchanged. |
| `Form.BlurOutOfOrderDateEmptiesField` | validations.js:134-137 | Blurring an input whose one token is a date-range rule against an element holding a date it is out of order with leaves that input empty, with an error element after it. |
| `Form.OnBlur` | validations.js:134-137 | The input is marked as having lost focus and ends exactly as `validateInput` leaves it. No other input changes. |
| `Form.OnKeyUp` | validations.js:139-155 | An input that has never lost focus only re-arms the timer for itself. One that has lost focus cancels the timer, loses its nearest error, and ends exactly as `validateInput` then leaves it. |
| `Form.OnTimer` | validations.js:145-148 | The timer fires once. Only the input it was armed for can change: it loses its nearest error and ends exactly as `validateInput` then leaves it. |
| `Form.FirstNamed` | validations.js:127 | Finds the first input with the given name, or reports that there is none. |
| `Form.OnDatepickerSelect` | validations.js:126-131 | Only the first input with the selected name can change: it loses its nearest error and ends exactly as `validateInput` then leaves it. Submit count and timer are kept. |
| `Form.OnInput` | validations.js:167-176 | Only the typed-in input changes. Its errors stay as they are. A field whose second token is `validName` stores the name sanitizer's result, one whose second token is `validEmail` the email sanitizer's result. A field without a sanitizer, or with the amount sanitizer, stores exactly what was typed, and no sanitizer lengthens it. |
| `Form.Step` | validations.js:104-176 | No event adds or removes an input or changes its name or id, none forgets that an input lost focus, and none puts a second error element after an input. |
| `Form.RunEvents` | validations.js:104-176 | A sequence of events keeps the form's inputs, in order, with their names and ids. |
| `Form.BlurredIsNeverReset` | validations.js:134-144 | Once an input has lost focus it stays marked, whatever events follow. |
| `Form.KeyUpBurstIsDebounced` | validations.js:139-151 | Keyups on inputs that never lost focus validate nothing and change no input. Only the last keyup's timer is left pending. |
| `Form.RunKeepsOneError` | validations.js:157-165 | If every input starts with at most one error element, no sequence of events gives an input a second one. |

## Left out

- DOM, jQuery and browser I/O are abstract. Inputs are records in document order, and events are steps of a state machine.
- The 300 ms delay is not modelled. `timer` records only which input the pending validation is for, and the step where it fires is an explicit event.
- Parsing dates is not modelled. `new Date(...)` is the caller's parse function, and an Invalid Date compares false with everything.
- `parseFloat` is replaced by exact decimal arithmetic. Double rounding is not modelled: `999999999999999.01` to `.06` read as the maximum under doubles and are accepted there, while the model rejects them. No other value of at most 15 integer digits and 2 decimals is judged differently.
- The regular-expression engine is not modelled. Each pattern is written out as a predicate for its own fixed expression.
- Lengths count characters (Unicode scalar values), not UTF-16 code units. Characters outside the Basic Multilingual Plane are counted once, not twice.
- `input.data("valid", ...)` is not modelled. The flag is written but never read.
- `$.validator.addMethod` and `$.fn.customValidation.defaults` are not modelled. The registered method appears in the `custom` map given to `Rules.Registry`. The default message it stores is never read when an error is shown.
- `console.log` in the amount sanitizer is modelled only as the `logged` string.
- `$(this).datepicker("hide")` is not modelled. It is a call into the date-picker widget.
- Names inherited from `Object.prototype` (for example `"toString"` as a rule token) are not modelled. The registry holds only the built-in and registered rules.
- `Rules.BracketFunctionTokenSkipped`: a registered function rule whose name holds a `[` is skipped in the model when the part before the `[` names no function. The source throws there instead, when it calls `.test` on the function.
- `Rules.CallRule`: a registered function rule sees only the value and the parameter. The source also passes it the input element (lines 203-208), through which it could read other state or empty or rewrite the field; the model does neither, and only a built-in date-range rule can empty the field.
- The ids a date-range rule reads are fixed for one `validateInput` call. A token that refers to the field itself, after an earlier token has emptied it, would read the emptied value in the source.
- `$("#" + param)` searches the whole document. The model only looks among the form's inputs. A parameter that is not a valid selector, which would throw in the source, is not modelled either.
- `Form.OnDatepickerSelect` does nothing for a name no input has. The source throws there (`undefined.trim()`).
- `Form.OnDatepickerSelect` validates only the first input with that name, and only among the form's inputs. The source's attribute selector can match several elements or a non-input element.
- `Form.OnSubmit` counts calls to `success`. With no `success` option the source throws a TypeError instead.
- `Form.OnSubmit` validates only the form's `input` elements, as the source does. Other elements, such as selects, are not inputs of the model.
- Blur does not remove an existing error before validating, and neither blur nor submit cancels a pending timer. The model keeps both behaviours and states nothing more about them.
- Sanitizers named by something other than the three built-in global functions are not modelled. `Sanitizers.SanitizerFor` returns none for them.
- `Sanitizers.SanitizeName`: only the caret's start is modelled. The source sets `selectionEnd` to the same value, which collapses any selection.

=== FILE: amount.dfy ===
/** The `validAmount` rule (validations.js lines 39-85), evaluated with exact
    decimal arithmetic over the digit strings instead of `parseFloat`. */
module Amount {
  import opened Chars
  import opened Strings

  /** The largest accepted amount, fifteen nines. */
  const MaxAmount: nat := 999_999_999_999_999
  const MaxIntegerDigits: nat := 15
  const MaxDecimals: nat := 2

  /** `[0-9.]` */
  predicate IsAmountChar(c: char) {
    IsDigit(c) || c == '.'
  }

  function Pow10(n: nat): (p: nat)
    ensures p >= 1
  {
    if n == 0 then 1 else 10 * Pow10(n - 1)
  }

  function DigitValue(c: char): nat {
    if IsDigit(c) then c as nat - '0' as nat else 0
  }

  /** The number a string of decimal digits denotes, most significant first. */
  function DigitsValue(s: string): nat
    decreases |s|
  {
    if |s| == 0 then 0 else 10 * DigitsValue(s[..|s| - 1]) + DigitValue(s[|s| - 1])
  }

  /** `n` digits denote less than `10^n`. */
  lemma {:induction false} DigitsValueBound(s: string)
    ensures DigitsValue(s) < Pow10(|s|)
    decreases |s|
  {
    if |s| > 0 {
      DigitsValueBound(s[..|s| - 1]);
    }
  }

  /** Powers of ten grow with the exponent. */
  lemma {:induction false} Pow10Monotone(m: nat, n: nat)
    requires m <= n
    ensures Pow10(m) <= Pow10(n)
    decreases n - m
  {
    if m < n {
      Pow10Monotone(m, n - 1);
    }
  }

  /** The integer part and the decimal part the rule works with: after every
      character outside `[0-9.]` is dropped, the first and second of the
      dot-separated segments (`parts[0]` and `parts[1] || ""`). */
  function Segments(value: string): (seg: (string, string))
    ensures All(seg.0, IsDigit) && All(seg.1, IsDigit)
  {
    var clean := Filter(IsAmountChar, value);
    var parts := Split(clean, '.');
    SplitDigits(clean);
    (parts[0], if |parts| > 1 then parts[1] else "")
  }

  /** Splitting a string of digits and dots at the dots leaves digit strings. */
  lemma {:induction false} SplitDigits(s: string)
    requires All(s, IsAmountChar)
    ensures forall k :: 0 <= k < |Split(s, '.')| ==> All(Split(s, '.')[k], IsDigit)
    decreases |s|
  {
    if |s| > 0 {
      SplitDigits(s[1..]);
    }
  }

  /** Which check of the rule rejects the value, in the order the rule makes them. */
  datatype AmountVerdict =
    | Accepted
    | IntegerPartTooLong
    | NotANumber
    | NotPositive
    | TooManyDecimals
    | AboveMaximum

  /** The rule's checks in source order, on the two segments. The value
      `parseFloat` reads is `intPart.decPart`, which here is the fraction
      `DigitsValue(intPart) * 10^d + DigitsValue(decPart)` over `10^d` with `d`
      the number of decimal digits. The source's later tests `amount < 0` and
      `amount === 0` can never fail once `amount <= 0` has been rejected, so
      they have no counterpart. */
  function CheckSegments(intPart: string, decPart: string): AmountVerdict
  {
    if |intPart| > MaxIntegerDigits then IntegerPartTooLong
    else if intPart == "" && decPart == "" then NotANumber
    else
      var scale := Pow10(|decPart|);
      var scaled := DigitsValue(intPart) * scale + DigitsValue(decPart);
      if scaled == 0 then NotPositive
      else if |decPart| > MaxDecimals then TooManyDecimals
      else if scaled > MaxAmount * scale then AboveMaximum
      else Accepted
  }

  /** The verdict of the `validAmount` rule on a trimmed field value. */
  function CheckAmount(value: string): AmountVerdict
  {
    var seg := Segments(value);
    CheckSegments(seg.0, seg.1)
  }

  /** The boolean the rule returns. */
  function ValidAmount(value: string): bool {
    CheckAmount(value) == Accepted
  }

  /** An amount in hundredths, for a decimal part of at most two digits. */
  function Cents(intPart: string, decPart: string): nat
    requires |decPart| <= MaxDecimals
  {
    DigitsValue(intPart) * 100 + DigitsValue(decPart) * Pow10(MaxDecimals - |decPart|)
  }

  /** The rule accepts a value exactly when its integer part has at most
      fifteen digits, its decimal part at most two, and the amount lies
      strictly above zero and at most at the maximum, counted in hundredths. */
  lemma ValidAmountIffCents(value: string)
    ensures ValidAmount(value) <==>
      var (intPart, decPart) := Segments(value);
      && |intPart| <= MaxIntegerDigits
      && |decPart| <= MaxDecimals
      && 0 < Cents(intPart, decPart) <= MaxAmount * 100
  {
    var (intPart, decPart) := Segments(value);
    if |decPart| <= MaxDecimals {
      var i, d := DigitsValue(intPart), DigitsValue(decPart);
      var scaled := i * Pow10(|decPart|) + d;
      if |decPart| == 0 {
        assert d == 0;
        assert Cents(intPart, decPart) == 100 * scaled;
      } else if |decPart| == 1 {
        assert Cents(intPart, decPart) == 10 * scaled;
      } else {
        assert Cents(intPart, decPart) == scaled;
      }
    }
  }

  /** Characters outside `[0-9.]` never matter. */
  lemma ValidAmountIgnoresOtherChars(value: string)
    ensures CheckAmount(Filter(IsAmountChar, value)) == CheckAmount(value)
  {
    var clean := Filter(IsAmountChar, value);
    assert Filter(IsAmountChar, clean) == clean;
  }

  /** A digit string, a dot and a digit string are all amount characters. */
  lemma DottedIsClean(intPart: string, decPart: string)
    requires All(intPart, IsDigit) && All(decPart, IsDigit)
    ensures Filter(IsAmountChar, intPart + "." + decPart) == intPart + "." + decPart
  {
    var short := intPart + "." + decPart;
    forall i | 0 <= i < |short| ensures IsAmountChar(short[i]) {
      if i < |intPart| { assert short[i] == intPart[i]; }
      else if i > |intPart| { assert short[i] == decPart[i - |intPart| - 1]; }
    }
  }

  /** A dotted amount made of digit strings splits into exactly those segments. */
  lemma SegmentsOfDotted(intPart: string, decPart: string)
    requires All(intPart, IsDigit) && All(decPart, IsDigit)
    ensures Segments(intPart + "." + decPart) == (intPart, decPart)
  {
    NoDot(intPart);
    NoDot(decPart);
    DottedIsClean(intPart, decPart);
    SplitPrefix(intPart, decPart, '.');
    SplitNoSeparator(decPart, '.');
  }

  /** Anything from a second dot on is ignored. */
  lemma SegmentsOfDottedTail(intPart: string, decPart: string, tail: string)
    requires All(intPart, IsDigit) && All(decPart, IsDigit)
    ensures Segments(intPart + "." + decPart + "." + tail) == (intPart, decPart)
  {
    NoDot(intPart);
    NoDot(decPart);
    var cleanTail := Filter(IsAmountChar, tail);
    CleanDottedTail(intPart, decPart, tail);
    SplitPrefix(intPart, decPart + "." + cleanTail, '.');
    SplitPrefix(decPart, cleanTail, '.');
  }

  /** Cleaning a dotted amount with a tail cleans only the tail. */
  lemma CleanDottedTail(intPart: string, decPart: string, tail: string)
    requires All(intPart, IsDigit) && All(decPart, IsDigit)
    ensures Filter(IsAmountChar, intPart + "." + decPart + "." + tail)
         == intPart + "." + (decPart + "." + Filter(IsAmountChar, tail))
  {
    var head := intPart + "." + decPart + ".";
    DottedHeadIsClean(intPart, decPart, head);
    FilterAppend(IsAmountChar, head, tail);
    Regroup(intPart, decPart, Filter(IsAmountChar, tail));
  }

  lemma DottedHeadIsClean(intPart: string, decPart: string, head: string)
    requires All(intPart, IsDigit) && All(decPart, IsDigit)
    requires head == intPart + "." + decPart + "."
    ensures Filter(IsAmountChar, head) == head
  {
    forall i | 0 <= i < |head| ensures IsAmountChar(head[i]) {
      if i < |intPart| { assert head[i] == intPart[i]; }
      else if |intPart| < i < |head| - 1 { assert head[i] == decPart[i - |intPart| - 1]; }
    }
  }

  lemma Regroup(a: string, b: string, c: string)
    ensures a + "." + b + "." + c == a + "." + (b + "." + c)
  {
  }

  /** A plain digit string is all integer part. */
  lemma SegmentsOfDigits(intPart: string)
    requires All(intPart, IsDigit)
    ensures Segments(intPart) == (intPart, "")
  {
    NoDot(intPart);
    assert Filter(IsAmountChar, intPart) == intPart;
    SplitNoSeparator(intPart, '.');
  }

  /** Only the first two dot-separated segments matter. */
  lemma ValidAmountIgnoresThirdSegment(intPart: string, decPart: string, tail: string)
    requires All(intPart, IsDigit) && All(decPart, IsDigit)
    ensures CheckAmount(intPart + "." + decPart + "." + tail) == CheckAmount(intPart + "." + decPart)
  {
    SegmentsOfDotted(intPart, decPart);
    SegmentsOfDottedTail(intPart, decPart, tail);
  }

  lemma NoDot(s: string)
    requires All(s, IsDigit)
    ensures '.' !in s
  {
  }

  /** A dotted amount of digit strings is judged on exactly those segments. */
  lemma CheckDotted(value: string, intPart: string, decPart: string)
    requires All(intPart, IsDigit) && All(decPart, IsDigit)
    requires value == intPart + "." + decPart
    ensures CheckAmount(value) == CheckSegments(intPart, decPart)
  {
    SegmentsOfDotted(intPart, decPart);
  }
}

/** The amounts the `validAmount` rule is documented to accept and reject.
    Each lemma names its value through a parameter equal to the literal. */
module AmountExamples {
  import opened Amount

  /** `"12.345"` is rejected: three decimal digits. */
  lemma RejectsThreeDecimals(value: string)
    requires value == "12.345"
    ensures CheckAmount(value) == TooManyDecimals
  {
    CheckDotted(value, "12", "345");
    assert CheckSegments("12", "345") == TooManyDecimals by {
      assert "345"[..2] == "34" && "34"[..1] == "3" && "3"[..0] == "";
      assert "12"[..1] == "1" && "1"[..0] == "";
    }
  }

  /** `"0"` is rejected: the amount is not positive. */
  lemma RejectsZero(value: string)
    requires value == "0"
    ensures CheckAmount(value) == NotPositive
  {
    SegmentsOfDigits(value);
    assert "0"[..0] == "";
  }

  /** `"100.50"` is accepted. */
  lemma AcceptsHundredFifty(value: string)
    requires value == "100.50"
    ensures CheckAmount(value) == Accepted
  {
    CheckDotted(value, "100", "50");
    assert CheckSegments("100", "50") == Accepted by {
      assert "100"[..2] == "10" && "10"[..1] == "1" && "1"[..0] == "";
      assert "50"[..1] == "5" && "5"[..0] == "";
    }
  }

  /** Without a decimal part, an integer part that passes the length check
      never exceeds the maximum: the upper bound only bites on fractions. */
  lemma WholeAmountNeverAboveMaximum(intPart: string)
    requires |intPart| <= MaxIntegerDigits
    ensures CheckSegments(intPart, "") != AboveMaximum
  {
    DigitsValueBound(intPart);
    Pow10Monotone(|intPart|, MaxIntegerDigits);
    MaxAmountIsNines();
  }

  /** A sixteen-digit integer part is rejected. */
  lemma RejectsSixteenDigits(value: string)
    requires value == "1234567890123456"
    ensures CheckAmount(value) == IntegerPartTooLong
  {
    SegmentsOfDigits(value);
  }

  /** A string of nines denotes one less than the next power of ten. */
  lemma {:induction false} NinesValue(s: string)
    requires forall i :: 0 <= i < |s| ==> s[i] == '9'
    ensures DigitsValue(s) == Pow10(|s|) - 1
    decreases |s|
  {
    if |s| > 0 {
      NinesValue(s[..|s| - 1]);
    }
  }

  /** The maximum is fifteen nines: one less than `10^15`. */
  lemma MaxAmountIsNines()
    ensures Pow10(MaxIntegerDigits) == MaxAmount + 1
  {
    assert Pow10(3) == 1_000;
    assert Pow10(6) == 1_000 * Pow10(3) by {
      assert Pow10(6) == 10 * Pow10(5) && Pow10(5) == 10 * Pow10(4) && Pow10(4) == 10 * Pow10(3);
    }
    assert Pow10(9) == 1_000 * Pow10(6) by {
      assert Pow10(9) == 10 * Pow10(8) && Pow10(8) == 10 * Pow10(7) && Pow10(7) == 10 * Pow10(6);
    }
    assert Pow10(12) == 1_000 * Pow10(9) by {
      assert Pow10(12) == 10 * Pow10(11) && Pow10(11) == 10 * Pow10(10) && Pow10(10) == 10 * Pow10(9);
    }
    assert Pow10(15) == 1_000 * Pow10(12) by {
      assert Pow10(15) == 10 * Pow10(14) && Pow10(14) == 10 * Pow10(13) && Pow10(13) == 10 * Pow10(12);
    }
  }

  /** Fifteen nines followed by any non-zero fraction exceed the maximum. */
  lemma NinesWithFractionAboveMaximum(intPart: string, decPart: string)
    requires |intPart| == MaxIntegerDigits && forall i :: 0 <= i < |intPart| ==> intPart[i] == '9'
    requires 0 < |decPart| <= MaxDecimals && DigitsValue(decPart) > 0
    ensures CheckSegments(intPart, decPart) == AboveMaximum
  {
    NinesValue(intPart);
    MaxAmountIsNines();
    var scale := Pow10(|decPart|);
    assert DigitsValue(intPart) == MaxAmount;
    assert DigitsValue(intPart) * scale + DigitsValue(decPart) > MaxAmount * scale;
  }

  /** One hundredth above the maximum is rejected. The value is given as its
      integer part of fifteen nines and its decimal part `01`. */
  lemma RejectsJustAboveMaximum(nines: string, value: string)
    requires nines == "999999999999999"
    requires value == nines + ".01"
    ensures CheckAmount(value) == AboveMaximum
  {
    var cents := "01";
    assert value == nines + "." + cents;
    assert DigitsValue(cents) == 1 by {
      assert cents[..1] == "0" && cents[..1][..0] == "";
    }
    CheckDotted(value, nines, cents);
    NinesWithFractionAboveMaximum(nines, cents);
  }
}

=== FILE: chars.dfy ===
/** The character classes the validation patterns and sanitizers are written with. */
module Chars {

  /** `[A-Za-z]` */
  predicate IsLetter(c: char) {
    'A' <= c <= 'Z' || 'a' <= c <= 'z'
  }

  /** `\d`: ASCII digits only (the patterns are not in Unicode mode). */
  predicate IsDigit(c: char) {
    '0' <= c <= '9'
  }

  /** `\s` and `String.prototype.trim`: the ECMAScript WhiteSpace and
      LineTerminator code points. */
  predicate IsSpace(c: char) {
    || c == '\t' || c == '\n' || c == '\U{B}' || c == '\U{C}' || c == '\r' || c == ' '
    || c == '\U{A0}' || c == '\U{1680}' || '\U{2000}' <= c <= '\U{200A}'
    || c == '\U{2028}' || c == '\U{2029}' || c == '\U{202F}' || c == '\U{205F}'
    || c == '\U{3000}' || c == '\U{FEFF}'
  }

  /** `[A-Za-z\s]` */
  predicate IsLetterOrSpace(c: char) {
    IsLetter(c) || IsSpace(c)
  }

  predicate IsNotSpace(c: char) {
    !IsSpace(c)
  }
}

=== FILE: dates.dfy ===
/** The date-range rules `greaterThan` and `lessThan` (validations.js lines 8-38).
    Date parsing is not modelled: the caller supplies `parse`, which maps a
    field's text to a point on a totally ordered time line or to an invalid
    date. */
module Dates {
  import opened Wrappers

  /** What `new Date(text)` yields as far as comparison can tell: a time value,
      or an Invalid Date, whose time value is NaN so every comparison with it
      is false. */
  datatype DateKey = InvalidDate | At(time: int)

  /** `a >= b` on two Date objects. */
  predicate NotBefore(a: DateKey, b: DateKey) {
    a.At? && b.At? && a.time >= b.time
  }

  /** `a <= b` on two Date objects. */
  predicate NotAfter(a: DateKey, b: DateKey) {
    a.At? && b.At? && a.time <= b.time
  }

  /** `greaterThan[from]`: this field may not lie before `from`.
      `lessThan[to]`: this field may not lie after `to`. */
  datatype Direction = GreaterThan | LessThan

  /** The order a direction demands of (this field, referenced field). */
  predicate InOrder(dir: Direction, mine: DateKey, theirs: DateKey) {
    match dir
    case GreaterThan => NotBefore(mine, theirs)
    case LessThan => NotAfter(mine, theirs)
  }

  /** What a function rule returns, together with its one side effect:
      emptying the field being validated. */
  datatype RuleOutcome = RuleOutcome(pass: bool, clearsField: bool)

  /** One date-range rule. `value` is the trimmed value of the field being
      validated; `other` is the value of the referenced element, `None` when
      there is no element with that id (`.val()` is then `undefined`). */
  function CheckDateOrder(dir: Direction, value: string, other: Option<string>, parse: string -> DateKey): (o: RuleOutcome)
    ensures o.clearsField <==> !o.pass
    ensures value == "" || other.None? || other == Some("") ==> o.pass
    ensures value != "" && other.Some? && other.value != "" ==>
              (o.pass <==> InOrder(dir, parse(value), parse(other.value)))
  {
    if value == "" || other.None? || other.value == "" then RuleOutcome(true, false)
    else if InOrder(dir, parse(value), parse(other.value)) then RuleOutcome(true, false)
    else RuleOutcome(false, true)
  }

  /** The two rules agree on a range: `greaterThan[from]` on the end date
      passes exactly when `lessThan[to]` on the start date does. */
  lemma DateRulesAgree(start: string, end: string, parse: string -> DateKey)
    ensures CheckDateOrder(GreaterThan, end, Some(start), parse)
         == CheckDateOrder(LessThan, start, Some(end), parse)
  {
  }

  /** A date that does not parse fails against any present value, and the
      field is emptied. */
  lemma InvalidDateFails(dir: Direction, value: string, other: string, parse: string -> DateKey)
    requires value != "" && other != ""
    requires parse(value) == InvalidDate || parse(other) == InvalidDate
    ensures CheckDateOrder(dir, value, Some(other), parse) == RuleOutcome(false, true)
  {
  }

  /** The comparisons are not strict: a date compared with itself passes. */
  lemma SameDatePasses(dir: Direction, value: string, parse: string -> DateKey)
    requires parse(value).At?
    ensures CheckDateOrder(dir, value, Some(value), parse).pass
  {
  }
}

=== FILE: form.dfy ===
/** The form-level behaviour of the plugin (validations.js lines 104-177):
    submit, blur, keyup with its debounce timer, the date picker's selection
    event and the `input` event that runs a sanitizer. Events are discrete
    steps; the 300 ms delay is not modelled, only which validation is pending. */
module Form {
  import opened Wrappers
  import opened Dates
  import opened Rules
  import opened Sanitizers
  import Strings

  /** One `<input>` of the form: its `name` and `id` attributes, its value, the
      error elements directly after it (nearest first), and whether it has
      ever lost focus. */
  datatype Field = Field(name: string, id: Option<string>, value: string, errors: seq<string>, blurred: bool)

  /** The options the plugin was attached with, and what the page supplies:
      the rule registry after `$.extend`, and how dates are parsed. */
  datatype Settings = Settings(
    rules: map<string, seq<string>>,
    messages: map<string, map<string, string>>,
    registry: map<string, Rule>,
    parse: string -> DateKey)

  /** A form: its inputs in document order, the input the single debounce timer
      will validate when it fires, and how often `success` has been called. */
  datatype State = State(fields: seq<Field>, timer: Option<nat>, successCalls: nat)

  datatype Event =
    | Submit
    | Blur(index: nat)
    | KeyUp(index: nat)
    | TimerFires
    | DatepickerSelect(name: string)
    | Input(index: nat, typed: string, caret: int)

  /** The first input with a given id, or `|fields|` when there is none. */
  function FirstWithId(fields: seq<Field>, id: string): (i: nat)
    ensures i <= |fields|
    ensures i < |fields| ==> fields[i].id == Some(id)
    ensures forall j :: 0 <= j < i ==> fields[j].id != Some(id)
    decreases |fields|
  {
    if |fields| == 0 then 0
    else if fields[0].id == Some(id) then 0
    else 1 + FirstWithId(fields[1..], id)
  }

  /** Element values by id, for the date-range rules: an id is known exactly
      when some input carries it, and the first input with it wins, as
      `$("#id")` finds it. */
  function Ids(fields: seq<Field>): (ids: map<string, string>)
    ensures forall id :: id in ids <==> FirstWithId(fields, id) < |fields|
    ensures forall id :: id in ids ==> ids[id] == fields[FirstWithId(fields, id)].value
    decreases |fields|
  {
    if |fields| == 0 then map[]
    else
      var rest := Ids(fields[1..]);
      if fields[0].id.Some? then rest[fields[0].id.value := fields[0].value] else rest
  }

  function RulesOf(settings: Settings, name: string): Option<seq<string>> {
    if name in settings.rules then Some(settings.rules[name]) else None
  }

  function MessagesOf(settings: Settings, name: string): Option<map<string, string>> {
    if name in settings.messages then Some(settings.messages[name]) else None
  }

  /** The verdict `validateInput` reaches on the input at `i` when the form's
      inputs are `fields`: its own rules, value, messages and error elements,
      and the other inputs' values for the date-range rules. */
  function VerdictAt(settings: Settings, fields: seq<Field>, i: nat): Verdict
    requires i < |fields|
  {
    var f := fields[i];
    ValidateInput(RulesOf(settings, f.name), f.value, MessagesOf(settings, f.name),
                  settings.registry, Context(Ids(fields), settings.parse), f.errors)
  }

  /** Two field lists that differ at most in values and errors. */
  predicate SameShape(a: seq<Field>, b: seq<Field>) {
    && |a| == |b|
    && forall j :: 0 <= j < |a| ==> a[j].name == b[j].name && a[j].id == b[j].id && a[j].blurred == b[j].blurred
  }

  /** Two field lists with the same inputs, in the same order. */
  predicate SameInputs(a: seq<Field>, b: seq<Field>) {
    && |a| == |b|
    && forall j :: 0 <= j < |a| ==> a[j].name == b[j].name && a[j].id == b[j].id
  }

  lemma SameInputsTransitive(a: seq<Field>, b: seq<Field>, c: seq<Field>)
    requires SameInputs(a, b) && SameInputs(b, c)
    ensures SameInputs(a, c)
  {
  }

  /** Every input has at most one error element. */
  predicate AtMostOneError(st: State) {
    forall j :: 0 <= j < |st.fields| ==> |st.fields[j].errors| <= 1
  }

  lemma SameShapeTransitive(a: seq<Field>, b: seq<Field>, c: seq<Field>)
    requires SameShape(a, b) && SameShape(b, c)
    ensures SameShape(a, c)
  {
  }

  /** `validateInput` on the input at `i`: its errors are rewritten, and a
      failing date-range rule empties its value. No other input changes. */
  function ValidateField(settings: Settings, fields: seq<Field>, i: nat): (r: (seq<Field>, bool))
    requires i < |fields|
    ensures SameShape(r.0, fields)
    ensures forall j :: 0 <= j < |fields| && j != i ==> r.0[j] == fields[j]
    ensures r.1 ==> r.0[i].errors == fields[i].errors
    ensures !r.1 ==> |r.0[i].errors| == (if |fields[i].errors| == 0 then 1 else |fields[i].errors|)
    ensures r.1 == VerdictAt(settings, fields, i).valid
    ensures r.0[i] == Annotated(fields[i], VerdictAt(settings, fields, i))
  {
    var v := VerdictAt(settings, fields, i);
    (fields[i := Annotated(fields[i], v)], v.valid)
  }

  /** An input after `validateInput`: its new error elements, and its value
      emptied when a date-range rule failed. */
  function Annotated(f: Field, v: Verdict): (g: Field)
    ensures g.name == f.name && g.id == f.id && g.blurred == f.blurred
    ensures g.errors == v.errors
    ensures g.value == if v.clearsField then "" else f.value
  {
    f.(errors := v.errors, value := if v.clearsField then "" else f.value)
  }

  /** `input.next(".error-message").remove()`: the nearest error element goes. */
  function RemoveNearestError(fields: seq<Field>, i: nat): (r: seq<Field>)
    requires i < |fields|
    ensures SameShape(r, fields)
    ensures forall j :: 0 <= j < |fields| && j != i ==> r[j] == fields[j]
    ensures r[i].value == fields[i].value
    ensures |fields[i].errors| <= 1 ==> r[i].errors == []
    ensures |fields[i].errors| > 0 ==> [fields[i].errors[0]] + r[i].errors == fields[i].errors
  {
    var f := fields[i];
    fields[i := f.(errors := if |f.errors| > 0 then f.errors[1..] else [])]
  }

  /** `form.find(".error-message").remove()` */
  function ClearErrors(fields: seq<Field>): (r: seq<Field>)
    ensures SameShape(r, fields)
    ensures forall j :: 0 <= j < |r| ==> r[j] == fields[j].(errors := [])
    decreases |fields|
  {
    if |fields| == 0 then []
    else [fields[0].(errors := [])] + ClearErrors(fields[1..])
  }

  /** The form as input `j` of the submit loop sees it: the inputs before it
      already validated (`done`), the others as they were (`fields`). */
  function Turn(done: seq<Field>, fields: seq<Field>, j: nat): (t: seq<Field>)
    requires j <= |done| && j <= |fields|
    ensures |t| == |fields|
  {
    done[..j] + fields[j..]
  }

  /** The submit handler's loop over the inputs from `i` on: every input is
      validated, with no short-circuit after a failure. Starting without
      errors, each input ends with one error element if it failed and none if
      it passed, and the loop reports success exactly when none is left. */
  function ValidateFrom(settings: Settings, fields: seq<Field>, i: nat): (r: (seq<Field>, bool))
    requires i <= |fields|
    requires forall j :: i <= j < |fields| ==> fields[j].errors == []
    ensures SameShape(r.0, fields)
    ensures forall j :: 0 <= j < i ==> r.0[j] == fields[j]
    ensures forall j :: i <= j < |fields| ==> |r.0[j].errors| <= 1
    ensures r.1 <==> forall j :: i <= j < |fields| ==> r.0[j].errors == []
    decreases |fields| - i
  {
    if i == |fields| then (fields, true)
    else
      var checked := ValidateField(settings, fields, i);
      var rest := ValidateFrom(settings, checked.0, i + 1);
      ValidateFromStep(fields, checked.0, rest.0, i, checked.1, rest.1);
      (rest.0, checked.1 && rest.1)
  }

  /** The same loop, input by input: each input is validated in document
      order against the form as the inputs before it left it, ends exactly as
      `validateInput` leaves it, and the loop reports success exactly when
      every input passed at its turn. */
  lemma {:induction false} ValidateFromInTurn(settings: Settings, fields: seq<Field>, i: nat)
    requires i <= |fields|
    requires forall j :: i <= j < |fields| ==> fields[j].errors == []
    ensures var r := ValidateFrom(settings, fields, i);
            && (forall j :: i <= j < |fields| ==> r.0[j] == Annotated(fields[j], VerdictAt(settings, Turn(r.0, fields, j), j)))
            && (r.1 <==> forall j :: i <= j < |fields| ==> VerdictAt(settings, Turn(r.0, fields, j), j).valid)
    decreases |fields| - i
  {
    if i < |fields| {
      var checked := ValidateField(settings, fields, i);
      var rest := ValidateFrom(settings, checked.0, i + 1);
      assert ValidateFrom(settings, fields, i) == (rest.0, checked.1 && rest.1);
      ValidateFromInTurn(settings, checked.0, i + 1);
      ValidateFromTurns(settings, fields, checked.0, rest.0, i, checked.1, rest.1);
    }
  }

  /** One round of the submit loop: validating input `i` and then the rest. */
  lemma ValidateFromStep(fields: seq<Field>, checked: seq<Field>, rest: seq<Field>, i: nat, ok: bool, restOk: bool)
    requires i < |fields| && fields[i].errors == []
    requires SameShape(checked, fields)
    requires forall j :: 0 <= j < |fields| && j != i ==> checked[j] == fields[j]
    requires ok ==> checked[i].errors == fields[i].errors
    requires !ok ==> |checked[i].errors| == 1
    requires SameShape(rest, checked)
    requires forall j :: 0 <= j < i + 1 ==> rest[j] == checked[j]
    requires forall j :: i + 1 <= j < |fields| ==> |rest[j].errors| <= 1
    requires restOk <==> forall j :: i + 1 <= j < |fields| ==> rest[j].errors == []
    ensures SameShape(rest, fields)
    ensures forall j :: 0 <= j < i ==> rest[j] == fields[j]
    ensures forall j :: i <= j < |fields| ==> |rest[j].errors| <= 1
    ensures ok && restOk <==> forall j :: i <= j < |fields| ==> rest[j].errors == []
  {
    assert rest[i] == checked[i];
    SameShapeTransitive(rest, checked, fields);
  }

  /** The same round, seen turn by turn: input `i` saw the form as it was,
      and every later input sees the same form whether the inputs after it
      are taken from before or after input `i` was validated. */
  lemma ValidateFromTurns(settings: Settings, fields: seq<Field>, checked: seq<Field>, rest: seq<Field>, i: nat, ok: bool, restOk: bool)
    requires i < |fields| && |checked| == |fields| && |rest| == |fields|
    requires forall j :: 0 <= j < |fields| && j != i ==> checked[j] == fields[j]
    requires ok == VerdictAt(settings, fields, i).valid
    requires checked[i] == Annotated(fields[i], VerdictAt(settings, fields, i))
    requires forall j :: 0 <= j < i + 1 ==> rest[j] == checked[j]
    requires forall j :: i + 1 <= j < |fields| ==> rest[j] == Annotated(checked[j], VerdictAt(settings, Turn(rest, checked, j), j))
    requires restOk <==> forall j :: i + 1 <= j < |fields| ==> VerdictAt(settings, Turn(rest, checked, j), j).valid
    ensures forall j :: i <= j < |fields| ==> rest[j] == Annotated(fields[j], VerdictAt(settings, Turn(rest, fields, j), j))
    ensures ok && restOk <==> forall j :: i <= j < |fields| ==> VerdictAt(settings, Turn(rest, fields, j), j).valid
  {
    TurnsAgree(fields, checked, rest, i);
    TurnsKeepFields(settings, fields, checked, rest, i);
    TurnsKeepValid(settings, fields, checked, rest, i, ok, restOk);
  }

  /** Each later input ends as it would have against the form before input
      `i` was validated. */
  lemma TurnsKeepFields(settings: Settings, fields: seq<Field>, checked: seq<Field>, rest: seq<Field>, i: nat)
    requires i < |fields| && |checked| == |fields| && |rest| == |fields|
    requires forall j :: 0 <= j < |fields| && j != i ==> checked[j] == fields[j]
    requires forall j :: i + 1 <= j <= |fields| ==> Turn(rest, checked, j) == Turn(rest, fields, j)
    requires forall j :: i + 1 <= j < |fields| ==> rest[j] == Annotated(checked[j], VerdictAt(settings, Turn(rest, checked, j), j))
    ensures forall j :: i + 1 <= j < |fields| ==> rest[j] == Annotated(fields[j], VerdictAt(settings, Turn(rest, fields, j), j))
  {
    forall j | i + 1 <= j < |fields|
      ensures rest[j] == Annotated(fields[j], VerdictAt(settings, Turn(rest, fields, j), j))
    {
      assert Turn(rest, checked, j) == Turn(rest, fields, j);
    }
  }

  /** Every later input passes as it would have against the form before input
      `i` was validated. */
  lemma TurnsKeepValid(settings: Settings, fields: seq<Field>, checked: seq<Field>, rest: seq<Field>, i: nat, ok: bool, restOk: bool)
    requires i < |fields| && |checked| == |fields| && |rest| == |fields|
    requires Turn(rest, fields, i) == fields
    requires forall j :: i + 1 <= j <= |fields| ==> Turn(rest, checked, j) == Turn(rest, fields, j)
    requires ok == VerdictAt(settings, fields, i).valid
    requires restOk <==> forall j :: i + 1 <= j < |fields| ==> VerdictAt(settings, Turn(rest, checked, j), j).valid
    ensures ok && restOk <==> forall j :: i <= j < |fields| ==> VerdictAt(settings, Turn(rest, fields, j), j).valid
  {
    forall j | i + 1 <= j < |fields|
      ensures VerdictAt(settings, Turn(rest, checked, j), j) == VerdictAt(settings, Turn(rest, fields, j), j)
    {
      assert Turn(rest, checked, j) == Turn(rest, fields, j);
    }
  }

  /** Input `i` sees the form as it was, and later inputs do not see whether
      the inputs after them are taken before or after input `i` was checked. */
  lemma TurnsAgree(fields: seq<Field>, checked: seq<Field>, rest: seq<Field>, i: nat)
    requires i < |fields| && |checked| == |fields| && |rest| == |fields|
    requires forall j :: 0 <= j < |fields| && j != i ==> checked[j] == fields[j]
    requires forall j :: 0 <= j < i ==> rest[j] == fields[j]
    ensures Turn(rest, fields, i) == fields
    ensures forall j :: i + 1 <= j <= |fields| ==> Turn(rest, checked, j) == Turn(rest, fields, j)
  {
    assert Turn(rest, fields, i) == fields;
    forall j | i + 1 <= j <= |fields|
      ensures Turn(rest, checked, j) == Turn(rest, fields, j)
    {
    }
  }

  /** Submit: drop every error element, validate every input, and call
      `success` once when all pass. The debounce timer is left alone. */
  function OnSubmit(settings: Settings, st: State): (st': State)
    ensures SameShape(st'.fields, st.fields)
    ensures st'.timer == st.timer
    ensures forall j :: 0 <= j < |st'.fields| ==> |st'.fields[j].errors| <= 1
    ensures st'.successCalls == st.successCalls + (if forall j :: 0 <= j < |st'.fields| ==> st'.fields[j].errors == [] then 1 else 0)
  {
    var cleared := ClearErrors(st.fields);
    var r := ValidateFrom(settings, cleared, 0);
    SameShapeTransitive(r.0, cleared, st.fields);
    State(r.0, st.timer, st.successCalls + if r.1 then 1 else 0)
  }

  /** Submit, input by input: every input, with its error elements removed,
      is validated against the form as the inputs before it left it. */
  lemma SubmitValidatesEveryInput(settings: Settings, st: State)
    ensures var cleared := ClearErrors(st.fields);
            var done := OnSubmit(settings, st).fields;
            forall j :: 0 <= j < |st.fields| ==>
              done[j] == Annotated(cleared[j], VerdictAt(settings, Turn(done, cleared, j), j))
  {
    var cleared := ClearErrors(st.fields);
    var r := ValidateFrom(settings, cleared, 0);
    ValidateFromInTurn(settings, cleared, 0);
    assert OnSubmit(settings, st).fields == r.0;
  }

  /** `success` is called exactly when every input passed at its turn. */
  lemma SubmitSucceedsIffEveryInputPasses(settings: Settings, st: State)
    ensures var cleared := ClearErrors(st.fields);
            var st' := OnSubmit(settings, st);
            st'.successCalls == st.successCalls +
              (if forall j :: 0 <= j < |st.fields| ==> VerdictAt(settings, Turn(st'.fields, cleared, j), j).valid then 1 else 0)
  {
    var cleared := ClearErrors(st.fields);
    var r := ValidateFrom(settings, cleared, 0);
    ValidateFromInTurn(settings, cleared, 0);
    assert OnSubmit(settings, st).fields == r.0;
  }

  /** Blur: the input is marked as having lost focus, for good, and validated
      at once; an error element it already has is rewritten, not removed. */
  function OnBlur(settings: Settings, st: State, i: nat): (st': State)
    ensures |st'.fields| == |st.fields| && st'.timer == st.timer && st'.successCalls == st.successCalls
    ensures i < |st.fields| ==> st'.fields[i].blurred
    ensures i < |st.fields| ==>
              var marked := st.fields[i := st.fields[i].(blurred := true)];
              st'.fields[i] == Annotated(marked[i], VerdictAt(settings, marked, i))
    ensures forall j :: 0 <= j < |st.fields| && j != i ==> st'.fields[j] == st.fields[j]
    ensures AtMostOneError(st) ==> AtMostOneError(st')
  {
    if i < |st.fields| then
      var marked := st.fields[i := st.fields[i].(blurred := true)];
      st.(fields := ValidateField(settings, marked, i).0)
    else st
  }

  /** Inputs that carry the same ids position by position: `$("#id")` finds
      the same position in both. */
  lemma FirstWithIdSameIds(a: seq<Field>, b: seq<Field>, id: string)
    requires |a| == |b| && forall j :: 0 <= j < |a| ==> a[j].id == b[j].id
    ensures FirstWithId(a, id) == FirstWithId(b, id)
  {
    var x, y := FirstWithId(a, id), FirstWithId(b, id);
    assert x < |a| ==> b[x].id == Some(id);
    assert y < |b| ==> a[y].id == Some(id);
  }

  /** Blurring a date field whose one token is `name[id]`, with `name` a
      date-range rule, when the element with that id holds a date the field's
      own date is out of order with: the field is emptied and an error is
      shown after it. */
  lemma BlurOutOfOrderDateEmptiesField(settings: Settings, st: State, i: nat, name: string, dir: Direction, id: string)
    requires i < |st.fields|
    requires name in settings.registry && settings.registry[name] == DateOrder(dir)
    requires '[' !in name && '[' !in id && ']' !in id
    requires RulesOf(settings, st.fields[i].name) == Some([name + "[" + id + "]"])
    requires FirstWithId(st.fields, id) < |st.fields|
    requires var mine := Strings.Trim(st.fields[i].value);
             var theirs := st.fields[FirstWithId(st.fields, id)].value;
             mine != "" && theirs != "" && !InOrder(dir, settings.parse(mine), settings.parse(theirs))
    ensures OnBlur(settings, st, i).fields[i].value == ""
    ensures OnBlur(settings, st, i).fields[i].errors != []
  {
    var marked := st.fields[i := st.fields[i].(blurred := true)];
    var ctx := Context(Ids(marked), settings.parse);
    var theirs := st.fields[FirstWithId(st.fields, id)].value;
    MarkingKeepsLookup(st.fields, i, id, settings.parse);
    DateTokenOutOfOrder(name, dir, id, theirs, marked[i].value, MessagesOf(settings, marked[i].name),
                        settings.registry, ctx, marked[i].errors);
  }

  /** Marking an input as blurred changes no value an id refers to. */
  lemma MarkingKeepsLookup(fields: seq<Field>, i: nat, id: string, parse: string -> DateKey)
    requires i < |fields| && FirstWithId(fields, id) < |fields|
    ensures var marked := fields[i := fields[i].(blurred := true)];
            LookupById(Context(Ids(marked), parse), Some(id)) == Some(fields[FirstWithId(fields, id)].value)
  {
    var marked := fields[i := fields[i].(blurred := true)];
    assert forall j :: 0 <= j < |fields| ==> marked[j].id == fields[j].id;
    FirstWithIdSameIds(marked, fields, id);
    var k := FirstWithId(fields, id);
    var ids := Ids(marked);
    assert id in ids && ids[id] == marked[k].value;
    assert marked[k].value == fields[k].value;
  }

  /** `input.next(".error-message").remove(); validateInput(input);`: the
      input loses its nearest error element and is validated, and no other
      input changes. An input with at most one error element still has at
      most one. */
  function Revalidate(settings: Settings, fields: seq<Field>, i: nat): (r: seq<Field>)
    requires i < |fields|
    ensures SameShape(r, fields)
    ensures forall j :: 0 <= j < |fields| && j != i ==> r[j] == fields[j]
    ensures var cleared := RemoveNearestError(fields, i);
            r[i] == Annotated(cleared[i], VerdictAt(settings, cleared, i))
    ensures |fields[i].errors| <= 1 ==> |r[i].errors| <= 1
  {
    var cleared := RemoveNearestError(fields, i);
    var r := ValidateField(settings, cleared, i).0;
    SameShapeTransitive(r, cleared, fields);
    r
  }

  /** Keyup: the pending timer is cancelled; an input that has never lost focus
      re-arms it for itself and is not validated now, one that has is cleared
      of its nearest error and validated at once. */
  function OnKeyUp(settings: Settings, st: State, i: nat): (st': State)
    requires i < |st.fields|
    ensures SameShape(st'.fields, st.fields) && st'.successCalls == st.successCalls
    ensures !st.fields[i].blurred ==> st' == st.(timer := Some(i))
    ensures st.fields[i].blurred ==> st'.timer == None
    ensures st.fields[i].blurred ==>
              var cleared := RemoveNearestError(st.fields, i);
              st'.fields[i] == Annotated(cleared[i], VerdictAt(settings, cleared, i))
    ensures forall j :: 0 <= j < |st.fields| && j != i ==> st'.fields[j] == st.fields[j]
    ensures AtMostOneError(st) ==> AtMostOneError(st')
  {
    if !st.fields[i].blurred then st.(timer := Some(i))
    else State(Revalidate(settings, st.fields, i), None, st.successCalls)
  }

  /** The debounce timer fires: the input it was armed for is cleared of its
      nearest error and validated. */
  function OnTimer(settings: Settings, st: State): (st': State)
    ensures SameShape(st'.fields, st.fields) && st'.successCalls == st.successCalls
    ensures st'.timer == None
    ensures st.timer.None? ==> st'.fields == st.fields
    ensures st.timer.Some? && st.timer.value < |st.fields| ==>
              var i := st.timer.value;
              var cleared := RemoveNearestError(st.fields, i);
              st'.fields[i] == Annotated(cleared[i], VerdictAt(settings, cleared, i))
    ensures forall j :: 0 <= j < |st.fields| && st.timer != Some(j) ==> st'.fields[j] == st.fields[j]
    ensures AtMostOneError(st) ==> AtMostOneError(st')
  {
    match st.timer
    case None => st
    case Some(i) =>
      if i < |st.fields| then State(Revalidate(settings, st.fields, i), None, st.successCalls)
      else st.(timer := None)
  }

  /** The first input with a given name, or `|fields|` when there is none. */
  function FirstNamed(fields: seq<Field>, name: string): (i: nat)
    ensures i <= |fields|
    ensures i < |fields| ==> fields[i].name == name
    ensures forall j :: 0 <= j < i ==> fields[j].name != name
    decreases |fields|
  {
    if |fields| == 0 then 0
    else if fields[0].name == name then 0
    else 1 + FirstNamed(fields[1..], name)
  }

  /** The date picker reports a selection for the named input: its nearest
      error is removed and it is validated. */
  function OnDatepickerSelect(settings: Settings, st: State, name: string): (st': State)
    ensures SameShape(st'.fields, st.fields) && st'.timer == st.timer && st'.successCalls == st.successCalls
    ensures forall j :: 0 <= j < |st.fields| && j != FirstNamed(st.fields, name) ==> st'.fields[j] == st.fields[j]
    ensures var i := FirstNamed(st.fields, name);
            i < |st.fields| ==>
              var cleared := RemoveNearestError(st.fields, i);
              st'.fields[i] == Annotated(cleared[i], VerdictAt(settings, cleared, i))
    ensures AtMostOneError(st) ==> AtMostOneError(st')
  {
    var i := FirstNamed(st.fields, name);
    if i < |st.fields| then st.(fields := Revalidate(settings, st.fields, i))
    else st
  }

  /** `input`: the typed value is stored, rewritten by the sanitizer the
      field's second rule token names, if any. */
  function OnInput(settings: Settings, st: State, i: nat, typed: string, caret: int): (st': State)
    ensures SameShape(st'.fields, st.fields) && st'.timer == st.timer && st'.successCalls == st.successCalls
    ensures forall j :: 0 <= j < |st.fields| && j != i ==> st'.fields[j] == st.fields[j]
    ensures i < |st.fields| ==>
              var rules := RulesOf(settings, st.fields[i].name);
              && st'.fields[i].errors == st.fields[i].errors
              && (rules.None? || SanitizerFor(rules.value).None? || SanitizerFor(rules.value) == Some(AmountSanitizer)
                  ==> st'.fields[i].value == typed)
              && |st'.fields[i].value| <= |typed|
              && (rules.Some? && |rules.value| >= 2 && rules.value[1] == "validName" ==>
                    st'.fields[i].value == SanitizeName(typed, caret).value)
              && (rules.Some? && |rules.value| >= 2 && rules.value[1] == "validEmail" ==>
                    st'.fields[i].value == SanitizeEmail(typed))
    ensures AtMostOneError(st) ==> AtMostOneError(st')
  {
    if i < |st.fields| then
      var f := st.fields[i];
      var rules := RulesOf(settings, f.name);
      var value :=
        if rules.Some? && SanitizerFor(rules.value).Some? then Sanitize(SanitizerFor(rules.value).value, typed, caret)
        else typed;
      st.(fields := st.fields[i := f.(value := value)])
    else st
  }

  /** One event. No event adds or removes an input or changes its name or id,
      none forgets that an input lost focus, and none puts a second error
      element after an input. */
  function Step(settings: Settings, st: State, ev: Event): (st': State)
    ensures SameInputs(st'.fields, st.fields)
    ensures forall j :: 0 <= j < |st.fields| && st.fields[j].blurred ==> st'.fields[j].blurred
    ensures AtMostOneError(st) ==> AtMostOneError(st')
  {
    match ev
    case Submit => OnSubmit(settings, st)
    case Blur(i) => OnBlur(settings, st, i)
    case KeyUp(i) => if i < |st.fields| then OnKeyUp(settings, st, i) else st
    case TimerFires => OnTimer(settings, st)
    case DatepickerSelect(name) => OnDatepickerSelect(settings, st, name)
    case Input(i, typed, caret) => OnInput(settings, st, i, typed, caret)
  }

  /** The state after a sequence of events, in order: the form keeps its
      inputs throughout. */
  function RunEvents(settings: Settings, st: State, events: seq<Event>): (st': State)
    ensures SameInputs(st'.fields, st.fields)
    decreases |events|
  {
    if |events| == 0 then st
    else
      var next := Step(settings, st, events[0]);
      var last := RunEvents(settings, next, events[1..]);
      SameInputsTransitive(last.fields, next.fields, st.fields);
      last
  }

  /** Once an input has lost focus it stays marked, whatever follows: its
      keyups are never debounced again. */
  lemma {:induction false} BlurredIsNeverReset(settings: Settings, st: State, events: seq<Event>, j: nat)
    requires j < |st.fields| && st.fields[j].blurred
    ensures |RunEvents(settings, st, events).fields| == |st.fields|
    ensures RunEvents(settings, st, events).fields[j].blurred
    decreases |events|
  {
    if |events| > 0 {
      BlurredIsNeverReset(settings, Step(settings, st, events[0]), events[1..], j);
    }
  }

  /** A burst of keyups on inputs that have never lost focus validates
      nothing and changes no input: only the last keyup's timer is pending. */
  lemma {:induction false} KeyUpBurstIsDebounced(settings: Settings, st: State, events: seq<Event>)
    requires |events| >= 1
    requires forall k :: 0 <= k < |events| ==> events[k].KeyUp? && events[k].index < |st.fields| && !st.fields[events[k].index].blurred
    ensures RunEvents(settings, st, events) == st.(timer := Some(events[|events| - 1].index))
    decreases |events|
  {
    var next := Step(settings, st, events[0]);
    assert next == st.(timer := Some(events[0].index));
    if |events| > 1 {
      assert forall k :: 0 <= k < |events[1..]| ==> events[1..][k] == events[k + 1];
      KeyUpBurstIsDebounced(settings, next, events[1..]);
    }
  }

  /** No sequence of events ever puts a second error element after an input. */
  lemma {:induction false} RunKeepsOneError(settings: Settings, st: State, events: seq<Event>)
    requires AtMostOneError(st)
    ensures AtMostOneError(RunEvents(settings, st, events))
    decreases |events|
  {
    if |events| > 0 {
      RunKeepsOneError(settings, Step(settings, st, events[0]), events[1..]);
    }
  }
}

=== FILE: patterns.dfy ===
/** The regular-expression rules of the registry (validations.js lines 3-7),
    each written out as a predicate on the trimmed field value. Every pattern
    is anchored with `^...$`, so each predicate speaks of the whole value. */
module Patterns {
  import opened Chars
  import opened Strings

  /** `alphabeticWithSpace`: `^[A-Za-z\s]+$` */
  predicate AlphabeticWithSpace(s: string) {
    |s| > 0 && All(s, IsLetterOrSpace)
  }

  /** The punctuation listed in the `allowedCharacters` class. */
  predicate IsAllowedSymbol(c: char) {
    c in "!@#$%^&*()_-=+{}[]:;\"'<>,.?/\\|~`"
  }

  predicate IsAllowedChar(c: char) {
    IsLetter(c) || IsDigit(c) || IsAllowedSymbol(c) || IsSpace(c)
  }

  /** `allowedCharacters`: `^[A-Za-z0-9!@#$%^&*()_\-=+{}\[\]:;"'<>,.?\/\\|~`\s]+$` */
  predicate AllowedCharacters(s: string) {
    |s| > 0 && All(s, IsAllowedChar)
  }

  /** `[a-zA-Z0-9._%+-]` */
  predicate IsEmailLocalChar(c: char) {
    IsLetter(c) || IsDigit(c) || c == '.' || c == '_' || c == '%' || c == '+' || c == '-'
  }

  /** `[a-zA-Z0-9.-]` */
  predicate IsEmailDomainChar(c: char) {
    IsLetter(c) || IsDigit(c) || c == '.' || c == '-'
  }

  /** `[a-zA-Z0-9.-]+\.[a-zA-Z]{2,}`: a non-empty host, a dot, and a top-level
      label of at least two letters. */
  predicate EmailDomain(d: string) {
    exists k :: 0 < k && k + 3 <= |d| && d[k] == '.' && All(d[..k], IsEmailDomainChar) && All(d[k + 1..], IsLetter)
  }

  /** `validEmail`: `^[a-zA-Z0-9._%+-]+@[a-zA-Z0-9.-]+\.[a-zA-Z]{2,}$` (the `i`
      flag adds nothing: every class already lists both cases). */
  predicate ValidEmail(s: string) {
    exists k :: 0 < k < |s| && s[k] == '@' && All(s[..k], IsEmailLocalChar) && EmailDomain(s[k + 1..])
  }

  /** Neither `@` nor whitespace. */
  predicate IsPlainChar(c: char) {
    c != '@' && !IsSpace(c)
  }

  lemma DomainIsPlain(d: string)
    requires EmailDomain(d)
    ensures All(d, IsPlainChar)
  {
    var m :| 0 < m && m + 3 <= |d| && d[m] == '.' && All(d[..m], IsEmailDomainChar) && All(d[m + 1..], IsLetter);
    forall j | 0 <= j < |d| ensures IsPlainChar(d[j]) {
      if j < m {
        assert d[..m][j] == d[j];
      } else if j > m {
        assert d[m + 1..][j - m - 1] == d[j];
      }
    }
  }

  lemma LocalIsPlain(t: string)
    requires All(t, IsEmailLocalChar)
    ensures All(t, IsPlainChar)
  {
    forall j | 0 <= j < |t| ensures IsPlainChar(t[j]) {
      assert IsEmailLocalChar(t[j]);
    }
  }

  /** A matching address holds exactly one `@`, and no whitespace. */
  lemma ValidEmailShape(s: string)
    requires ValidEmail(s)
    ensures exists k :: 0 <= k < |s| && s[k] == '@' && forall i :: 0 <= i < |s| && i != k ==> s[i] != '@'
    ensures All(s, IsNotSpace)
  {
    var k :| 0 < k < |s| && s[k] == '@' && All(s[..k], IsEmailLocalChar) && EmailDomain(s[k + 1..]);
    LocalIsPlain(s[..k]);
    DomainIsPlain(s[k + 1..]);
    PlainAround(s, k);
  }

  lemma PlainAround(s: string, k: nat)
    requires k < |s| && s[k] == '@'
    requires All(s[..k], IsPlainChar) && All(s[k + 1..], IsPlainChar)
    ensures forall i :: 0 <= i < |s| && i != k ==> IsPlainChar(s[i])
    ensures All(s, IsNotSpace)
  {
    forall i | 0 <= i < |s| && i != k ensures IsPlainChar(s[i]) {
      if i < k {
        assert s[..k][i] == s[i];
      } else {
        assert s[k + 1..][i - k - 1] == s[i];
      }
    }
  }

  /** `validMobile`: `^(?!0)(?!(\d)\1+$)\d{10}$`: ten ASCII digits, not
      starting with 0, and not one digit repeated throughout. */
  predicate ValidMobile(s: string) {
    && |s| == 10
    && All(s, IsDigit)
    && s[0] != '0'
    && !(|s| >= 2 && IsDigit(s[0]) && forall i :: 1 <= i < |s| ==> s[i] == s[0])
  }

  /** `[A-Za-z]+(?:\s[A-Za-z]+){0,more}(?:\s)?$` matched at the start of `s`.
      Letters and whitespace are disjoint, so every word is a maximal letter run
      and the match, when it exists, is unique. */
  predicate NameFrom(s: string, more: nat)
    decreases |s|
  {
    && |s| > 0
    && IsLetter(s[0])
    && var rest := s[Run(s, IsLetter)..];
       || rest == []
       || (&& IsSpace(rest[0])
           && (|rest| == 1 || (more > 0 && NameFrom(rest[1..], more - 1))))
  }

  /** `validName`: `^[A-Za-z]+(?:\s[A-Za-z]+){0,29}(?:\s)?$`: up to thirty
      words separated by single whitespace characters, with at most one
      trailing whitespace character. */
  predicate ValidName(s: string) {
    NameFrom(s, 29)
  }

  /** A string the name pattern accepts starts with a letter, holds only
      letters and whitespace, and never holds two whitespace characters in a row. */
  lemma {:induction false} NameFromShape(s: string, more: nat)
    requires NameFrom(s, more)
    ensures IsLetter(s[0]) && All(s, IsLetterOrSpace) && NoAdjacentSpaces(s)
    decreases |s|
  {
    var k := Run(s, IsLetter);
    if k + 1 < |s| {
      var t := s[k + 1..];
      assert t == s[k..][1..];
      NameFromShape(t, more - 1);
      WordThenShape(s, k);
    } else {
      forall i | 0 <= i < |s| ensures IsLetterOrSpace(s[i]) && (i < k ==> IsLetter(s[i])) {
        if i < k { assert s[..k][i] == s[i]; }
      }
    }
  }

  /** A word, one whitespace character and a well-shaped rest form a
      well-shaped string. */
  lemma WordThenShape(s: string, k: nat)
    requires k + 1 < |s| && All(s[..k], IsLetter) && IsSpace(s[k])
    requires IsLetter(s[k + 1]) && All(s[k + 1..], IsLetterOrSpace) && NoAdjacentSpaces(s[k + 1..])
    ensures All(s, IsLetterOrSpace) && NoAdjacentSpaces(s)
  {
    var t := s[k + 1..];
    forall i | 0 <= i < |s| ensures IsLetterOrSpace(s[i]) {
      if i < k { assert s[..k][i] == s[i]; }
      else if i > k { assert t[i - k - 1] == s[i]; }
    }
    forall i | 0 < i < |s| ensures !(IsSpace(s[i - 1]) && IsSpace(s[i])) {
      if i < k { assert s[..k][i] == s[i]; }
      else if i == k { assert s[..k][i - 1] == s[i - 1]; }
      else if i == k + 1 { assert t[0] == s[i]; }
      else { assert t[i - k - 2] == s[i - 1] && t[i - k - 1] == s[i]; }
    }
  }

  /** Conversely, a string of letters and single whitespace characters that
      starts with a letter matches as long as it is short enough for the word
      budget: `more` further words need at most `2 * more + 2` characters. */
  lemma {:induction false} NameFromOfShape(s: string, more: nat)
    requires |s| > 0 && IsLetter(s[0]) && All(s, IsLetterOrSpace) && NoAdjacentSpaces(s)
    requires |s| <= 2 * more + 2
    ensures NameFrom(s, more)
    decreases |s|
  {
    var k := Run(s, IsLetter);
    var rest := s[k..];
    if |rest| > 0 {
      assert rest[0] == s[k];
      assert IsSpace(rest[0]);
      if |rest| > 1 {
        var t := rest[1..];
        assert t[0] == s[k + 1];
        assert IsLetter(t[0]) by {
          assert IsLetterOrSpace(s[k + 1]);
          assert !(IsSpace(s[k]) && IsSpace(s[k + 1]));
        }
        forall i | 0 <= i < |t| ensures IsLetterOrSpace(t[i]) {
          assert t[i] == s[k + 1 + i];
        }
        forall i | 0 < i < |t| ensures !(IsSpace(t[i - 1]) && IsSpace(t[i])) {
          assert t[i - 1] == s[k + i] && t[i] == s[k + 1 + i];
        }
        NameFromOfShape(t, more - 1);
      }
    }
  }

  /** The name pattern's exact reach on short strings: a value of at most sixty
      characters matches if and only if it starts with a letter, holds only
      letters and whitespace, and has no two whitespace characters in a row. */
  lemma ValidNameIff(s: string)
    requires |s| <= 60
    ensures ValidName(s) <==> |s| > 0 && IsLetter(s[0]) && All(s, IsLetterOrSpace) && NoAdjacentSpaces(s)
  {
    if ValidName(s) {
      NameFromShape(s, 29);
    }
    if |s| > 0 && IsLetter(s[0]) && All(s, IsLetterOrSpace) && NoAdjacentSpaces(s) {
      NameFromOfShape(s, 29);
    }
  }

  /** The mobile rule spelled positively: ten digits, a non-zero first one,
      and some digit that differs from the first. */
  lemma ValidMobileIff(s: string)
    ensures ValidMobile(s) <==>
      |s| == 10 && All(s, IsDigit) && s[0] != '0' && exists i :: 1 <= i < |s| && s[i] != s[0]
  {
  }

  /** Three mobile numbers: a plain one is accepted, a leading zero and a
      repeated digit are not. */
  lemma ValidMobileExamples()
    ensures ValidMobile("9876543210")
    ensures !ValidMobile("0123456789")
    ensures !ValidMobile("5555555555")
  {
    var good := "9876543210";
    assert All(good, IsDigit) by {
      forall i | 0 <= i < |good| ensures IsDigit(good[i]) { }
    }
    assert good[1] != good[0];
  }

  /** Every value the name rule accepts is also accepted by `alphabeticWithSpace`. */
  lemma ValidNameIsAlphabetic(s: string)
    requires ValidName(s)
    ensures AlphabeticWithSpace(s)
  {
    NameFromShape(s, 29);
  }

  /** `allowedCharacters` accepts everything `alphabeticWithSpace` accepts. */
  lemma AlphabeticIsAllowed(s: string)
    requires AlphabeticWithSpace(s)
    ensures AllowedCharacters(s)
  {
    forall i | 0 <= i < |s| ensures IsAllowedChar(s[i]) {
      assert IsLetterOrSpace(s[i]);
    }
  }
}

=== FILE: rules.dfy ===
/** The rule registry and `validateInput` (validations.js lines 2-86 and
    179-230): how one field's configured rule tokens are parsed, looked up and
    combined into a verdict, and how the single error annotation after the
    field is written (`showError`, lines 157-165). */
module Rules {
  import opened Wrappers
  import opened Chars
  import opened Strings
  import Patterns
  import Amount
  import opened Dates

  const RequiredToken := "required"
  const RequiredMessage := "This field is required."
  const InvalidMessage := "Invalid value"

  /** An entry of the registry: a regular expression, or a function. The
      functions are the two date-range rules, `validAmount`, and whatever a
      page registers itself, which may read the value and the parameter. */
  datatype Rule =
    | Pattern(test: string -> bool)
    | DateOrder(dir: Direction)
    | AmountRule
    | Method(check: (string, Option<string>) -> bool)

  /** The rules the plugin ships with. */
  function BuiltinRules(): map<string, Rule> {
    map[
      "alphabeticWithSpace" := Pattern(Patterns.AlphabeticWithSpace),
      "validEmail" := Pattern(Patterns.ValidEmail),
      "allowedCharacters" := Pattern(Patterns.AllowedCharacters),
      "validName" := Pattern(Patterns.ValidName),
      "validMobile" := Pattern(Patterns.ValidMobile),
      "greaterThan" := DateOrder(GreaterThan),
      "lessThan" := DateOrder(LessThan),
      "validAmount" := AmountRule
    ]
  }

  /** `$.extend(customRules, customMethods)`: registered rules are added, and
      replace a built-in rule of the same name. */
  function Registry(custom: map<string, Rule>): (registry: map<string, Rule>)
    ensures registry.Keys == BuiltinRules().Keys + custom.Keys
    ensures forall name :: name in custom ==> registry[name] == custom[name]
    ensures forall name :: name in BuiltinRules() && name !in custom ==> registry[name] == BuiltinRules()[name]
  {
    BuiltinRules() + custom
  }

  /** What the date-range rules can see of the page: element values by id, and
      the date parser. */
  datatype Context = Context(ids: map<string, string>, parse: string -> DateKey)

  /** `$("#" + param).val()`: a missing parameter is concatenated as the text
      "undefined", and a missing element reads as `undefined`. */
  function LookupById(ctx: Context, param: Option<string>): (v: Option<string>)
    ensures v.Some? <==> param.GetOr("undefined") in ctx.ids
    ensures v.Some? ==> v.value == ctx.ids[param.GetOr("undefined")]
  {
    var id := param.GetOr("undefined");
    if id in ctx.ids then Some(ctx.ids[id]) else None
  }

  /** A rule token split into the name looked up for function rules and the
      parameter handed to them. */
  datatype Token = Token(name: string, param: Option<string>)

  /** `rule.split("[")`: the name is `parts[0]`; the parameter is `parts[1]`
      with its first `]` removed, or `undefined` when there is no `[`. */
  function ParseToken(rule: string): (t: Token)
    ensures var i := IndexOf(rule, '[');
            && t.name == rule[..i]
            && (t.param.None? <==> i == |rule|)
            && (i < |rule| ==>
                  var after := rule[i + 1..];
                  t.param == Some(RemoveFirst(after[..IndexOf(after, '[')], ']')))
  {
    var parts := Split(rule, '[');
    SplitAtFirst(rule, '[');
    if |parts| > 1 then
      var after := rule[IndexOf(rule, '[') + 1..];
      SplitAtFirst(after, '[');
      assert parts[1..] == Split(after, '[');
      assert parts[1] == after[..IndexOf(after, '[')];
      Token(parts[0], Some(RemoveFirst(parts[1], ']')))
    else
      Token(parts[0], None)
  }

  /** `split` cuts at the first separator, and keeps a string without one whole. */
  lemma SplitAtFirst(s: string, sep: char)
    ensures var i := IndexOf(s, sep);
            Split(s, sep) == if i < |s| then [s[..i]] + Split(s[i + 1..], sep) else [s]
  {
    var i := IndexOf(s, sep);
    if i < |s| {
      assert s == s[..i] + [sep] + s[i + 1..];
      SplitPrefix(s[..i], s[i + 1..], sep);
    } else {
      assert s[..i] == s;
      SplitNoSeparator(s, sep);
    }
  }

  /** Calls a function rule with the trimmed value and the token's parameter:
      a date-range rule compares against the element the parameter names,
      `validAmount` judges the value alone, and a registered function answers
      from the value and the parameter only, without the input element. Only
      a date-range rule can empty the field. */
  function CallRule(rule: Rule, value: string, param: Option<string>, ctx: Context): (o: RuleOutcome)
    requires !rule.Pattern?
    ensures o.clearsField ==> rule.DateOrder? && !o.pass
    ensures rule.DateOrder? ==> o == CheckDateOrder(rule.dir, value, LookupById(ctx, param), ctx.parse)
    ensures rule.AmountRule? ==> o == RuleOutcome(Amount.ValidAmount(value), false)
    ensures rule.Method? ==> o == RuleOutcome(rule.check(value, param), false)
  {
    match rule
    case DateOrder(dir) => CheckDateOrder(dir, value, LookupById(ctx, param), ctx.parse)
    case AmountRule => RuleOutcome(Amount.ValidAmount(value), false)
    case Method(check) => RuleOutcome(check(value, param), false)
  }

  /** The fate of one token: not checked at all, or checked with a result, the
      key its message is looked up under, and whether it empties the field. */
  datatype Check = Skipped | Checked(pass: bool, key: string, clearsField: bool)

  predicate Fails(c: Check) {
    c.Checked? && !c.pass
  }

  /** One iteration of the `rules.forEach` loop. A function rule is found by the
      token's name; a pattern rule only by the whole token, so a pattern token
      with a parameter is never checked; names the registry does not hold,
      `required` among them, are skipped. */
  function CheckToken(rule: string, value: string, registry: map<string, Rule>, ctx: Context): (c: Check)
    ensures c.Checked? <==>
              || (ParseToken(rule).name in registry && !registry[ParseToken(rule).name].Pattern?)
              || (rule in registry && registry[rule].Pattern?)
    ensures c.Checked? && c.clearsField ==> !c.pass
    ensures var t := ParseToken(rule);
            t.name in registry && !registry[t.name].Pattern? ==>
              var o := CallRule(registry[t.name], value, t.param, ctx);
              c == Checked(o.pass, t.name, o.clearsField)
    ensures var t := ParseToken(rule);
            !(t.name in registry && !registry[t.name].Pattern?) && rule in registry && registry[rule].Pattern? ==>
              c == Checked(registry[rule].test(value), rule, false)
  {
    var t := ParseToken(rule);
    if t.name in registry && !registry[t.name].Pattern? then
      var o := CallRule(registry[t.name], value, t.param, ctx);
      Checked(o.pass, t.name, o.clearsField)
    else if rule in registry && registry[rule].Pattern? then
      Checked(registry[rule].test(value), rule, false)
    else
      Skipped
  }

  /** `messages[key] || fallback`: a configured message, unless it is missing
      or empty. */
  function MessageFor(messages: Option<map<string, string>>, key: string, fallback: string): (m: string)
    ensures messages.Some? && key in messages.value && messages.value[key] != "" ==> m == messages.value[key]
    ensures !(messages.Some? && key in messages.value && messages.value[key] != "") ==> m == fallback
  {
    if messages.Some? && key in messages.value && messages.value[key] != "" then messages.value[key] else fallback
  }

  /** `showError`: the error elements directly after the field, nearest first.
      The nearest one has its text replaced; only when there is none is a new
      element inserted. */
  function ShowError(errors: seq<string>, message: string): (r: seq<string>)
    ensures |r| == if |errors| == 0 then 1 else |errors|
    ensures r[0] == message
    ensures r[1..] == if |errors| == 0 then [] else errors[1..]
  {
    if |errors| > 0 then [message] + errors[1..] else [message]
  }

  /** Showing a second error overwrites the first: the annotation is updated
      in place, never duplicated. */
  lemma ShowErrorOverwrites(errors: seq<string>, first: string, second: string)
    ensures ShowError(ShowError(errors, first), second) == ShowError(errors, second)
    ensures |errors| <= 1 ==> |ShowError(errors, first)| == 1
  {
  }

  /** Every token checked against the same trimmed value, in order. */
  function CheckAll(rules: seq<string>, value: string, registry: map<string, Rule>, ctx: Context): (checks: seq<Check>)
    ensures |checks| == |rules|
    ensures forall k :: 0 <= k < |rules| ==> checks[k] == CheckToken(rules[k], value, registry, ctx)
    decreases |rules|
  {
    if |rules| == 0 then []
    else [CheckToken(rules[0], value, registry, ctx)] + CheckAll(rules[1..], value, registry, ctx)
  }

  /** The position of the last failing check, if any. */
  function LastFailure(checks: seq<Check>): (k: Option<nat>)
    ensures k.None? <==> forall j :: 0 <= j < |checks| ==> !Fails(checks[j])
    ensures k.Some? ==> k.value < |checks| && Fails(checks[k.value])
    ensures k.Some? ==> forall j :: k.value < j < |checks| ==> !Fails(checks[j])
    decreases |checks|
  {
    if |checks| == 0 then None
    else if Fails(checks[|checks| - 1]) then Some(|checks| - 1)
    else
      var k := LastFailure(checks[..|checks| - 1]);
      assert forall j :: 0 <= j < |checks| - 1 ==> checks[..|checks| - 1][j] == checks[j];
      k
  }

  /** Some failing check empties the field. */
  predicate AnyClears(checks: seq<Check>) {
    exists k :: 0 <= k < |checks| && Fails(checks[k]) && checks[k].clearsField
  }

  lemma AnyClearsSnoc(checks: seq<Check>)
    requires |checks| > 0
    ensures var last := |checks| - 1;
            AnyClears(checks) <==> AnyClears(checks[..last]) || (Fails(checks[last]) && checks[last].clearsField)
  {
    var last := |checks| - 1;
    if AnyClears(checks) && !(Fails(checks[last]) && checks[last].clearsField) {
      var k :| 0 <= k < |checks| && Fails(checks[k]) && checks[k].clearsField;
      assert checks[..last][k] == checks[k];
    }
    if AnyClears(checks[..last]) {
      var k :| 0 <= k < last && Fails(checks[..last][k]) && checks[..last][k].clearsField;
      assert checks[k] == checks[..last][k];
    }
  }

  /** Some check of the loop empties the field exactly when some token's own
      check fails and empties it. */
  lemma CheckAllClears(rules: seq<string>, value: string, registry: map<string, Rule>, ctx: Context)
    ensures AnyClears(CheckAll(rules, value, registry, ctx)) <==>
              exists k :: && 0 <= k < |rules|
                          && Fails(CheckToken(rules[k], value, registry, ctx))
                          && CheckToken(rules[k], value, registry, ctx).clearsField
  {
    var checks := CheckAll(rules, value, registry, ctx);
    if AnyClears(checks) {
      var k :| 0 <= k < |checks| && Fails(checks[k]) && checks[k].clearsField;
      assert checks[k] == CheckToken(rules[k], value, registry, ctx);
    }
  }

  datatype RunResult = RunResult(valid: bool, errors: seq<string>, clearsField: bool)

  /** The `rules.forEach` loop for a non-empty value, given each token's check
      in order: there is no short-circuit, each failure shows its message over
      the previous one, so the message left standing is the last failure's,
      and the value is valid only if no check fails. */
  function ShowFailures(checks: seq<Check>, messages: Option<map<string, string>>, errors: seq<string>): (r: RunResult)
    ensures r.valid <==> LastFailure(checks).None?
    ensures r.errors == match LastFailure(checks)
                        case None => errors
                        case Some(k) => ShowError(errors, MessageFor(messages, checks[k].key, InvalidMessage))
    ensures r.clearsField <==> AnyClears(checks)
    decreases |checks|
  {
    if |checks| == 0 then RunResult(true, errors, false)
    else
      var last := |checks| - 1;
      var prev := ShowFailures(checks[..last], messages, errors);
      var c := checks[last];
      AnyClearsSnoc(checks);
      assert forall k :: 0 <= k < last ==> checks[..last][k] == checks[k];
      if Fails(c) then
        var message := MessageFor(messages, c.key, InvalidMessage);
        if prev.valid then
          RunResult(false, ShowError(prev.errors, message), prev.clearsField || c.clearsField)
        else
          var k := LastFailure(checks[..last]).value;
          ShowErrorOverwrites(errors, MessageFor(messages, checks[k].key, InvalidMessage), message);
          RunResult(false, ShowError(prev.errors, message), prev.clearsField || c.clearsField)
      else
        prev
  }

  datatype Verdict = Verdict(valid: bool, errors: seq<string>, clearsField: bool)

  /** `validateInput` for one field: `rules` is the field's configured token
      list (`None` when the field has no entry), `raw` its value before
      trimming, `messages` its message table, `errors` the error elements
      after it. A blank value fails only under `required`, and then without
      any other rule being looked at; a non-blank value is valid exactly when
      no token's check fails, whatever the tokens' order; the nearest error
      element is written, never a second one added. */
  function ValidateInput(rules: Option<seq<string>>, raw: string, messages: Option<map<string, string>>,
                         registry: map<string, Rule>, ctx: Context, errors: seq<string>): (v: Verdict)
    ensures rules.None? ==> v == Verdict(true, errors, false)
    ensures rules.Some? && All(raw, IsSpace) ==>
              v == if RequiredToken in rules.value
                   then Verdict(false, ShowError(errors, MessageFor(messages, RequiredToken, RequiredMessage)), false)
                   else Verdict(true, errors, false)
    ensures rules.Some? && !All(raw, IsSpace) ==>
              (v.valid <==> forall k :: 0 <= k < |rules.value| ==> !Fails(CheckToken(rules.value[k], Trim(raw), registry, ctx)))
    ensures v.valid ==> v.errors == errors
    ensures !v.valid ==> |v.errors| == (if |errors| == 0 then 1 else |errors|)
  {
    var value := Trim(raw);
    TrimEmpty(raw);
    if rules.None? then Verdict(true, errors, false)
    else if RequiredToken in rules.value && value == "" then
      Verdict(false, ShowError(errors, MessageFor(messages, RequiredToken, RequiredMessage)), false)
    else if value != "" then
      var checks := CheckAll(rules.value, value, registry, ctx);
      var r := ShowFailures(checks, messages, errors);
      assert r.valid <==> forall k :: 0 <= k < |checks| ==> !Fails(checks[k]);
      Verdict(r.valid, r.errors, r.clearsField)
    else
      Verdict(true, errors, false)
  }

  /** On a non-blank value the field is emptied exactly when some token's
      check fails and empties it, that is, when a date-range rule fails. */
  lemma ValidateInputClears(rules: Option<seq<string>>, raw: string, messages: Option<map<string, string>>,
                            registry: map<string, Rule>, ctx: Context, errors: seq<string>)
    ensures var v := ValidateInput(rules, raw, messages, registry, ctx, errors);
            rules.Some? && !All(raw, IsSpace) ==>
              (v.clearsField <==> exists k :: && 0 <= k < |rules.value|
                                               && Fails(CheckToken(rules.value[k], Trim(raw), registry, ctx))
                                               && CheckToken(rules.value[k], Trim(raw), registry, ctx).clearsField)
  {
    if rules.Some? && !All(raw, IsSpace) {
      TrimEmpty(raw);
      CheckAllClears(rules.value, Trim(raw), registry, ctx);
    }
  }

  /** On a non-blank value the error left showing carries the message of the
      last token that failed, looked up under the key that token was checked
      by, or "Invalid value". */
  lemma ValidateInputShowsLastFailure(rules: seq<string>, raw: string, messages: Option<map<string, string>>,
                                      registry: map<string, Rule>, ctx: Context, errors: seq<string>)
    requires !All(raw, IsSpace)
    requires !ValidateInput(Some(rules), raw, messages, registry, ctx, errors).valid
    ensures exists k :: && 0 <= k < |rules|
                        && Fails(CheckToken(rules[k], Trim(raw), registry, ctx))
                        && (forall j :: k < j < |rules| ==> !Fails(CheckToken(rules[j], Trim(raw), registry, ctx)))
                        && ValidateInput(Some(rules), raw, messages, registry, ctx, errors).errors[0]
                           == MessageFor(messages, CheckToken(rules[k], Trim(raw), registry, ctx).key, InvalidMessage)
  {
    TrimEmpty(raw);
    var checks := CheckAll(rules, Trim(raw), registry, ctx);
    var k := LastFailure(checks).value;
    assert checks[k] == CheckToken(rules[k], Trim(raw), registry, ctx);
  }

  /** A blank value is judged without consulting any rule: the verdict is the
      same whatever the registry and the page hold. */
  lemma BlankValueConsultsNoRule(rules: Option<seq<string>>, raw: string, messages: Option<map<string, string>>,
                                 registry: map<string, Rule>, other: map<string, Rule>, ctx: Context, otherCtx: Context,
                                 errors: seq<string>)
    requires All(raw, IsSpace)
    ensures ValidateInput(rules, raw, messages, registry, ctx, errors)
         == ValidateInput(rules, raw, messages, other, otherCtx, errors)
  {
  }

  /** Checking one more token appends its check. */
  lemma CheckAllSnoc(rules: seq<string>, rule: string, value: string, registry: map<string, Rule>, ctx: Context)
    ensures CheckAll(rules + [rule], value, registry, ctx) == CheckAll(rules, value, registry, ctx) + [CheckToken(rule, value, registry, ctx)]
  {
  }

  /** A token whose name and whole text are both unknown to the registry changes
      nothing, wherever it is appended. */
  lemma {:induction false} UnknownTokenIgnored(rules: seq<string>, rule: string, raw: string, messages: Option<map<string, string>>,
                                               registry: map<string, Rule>, ctx: Context, errors: seq<string>)
    requires rule != RequiredToken
    requires ParseToken(rule).name !in registry && rule !in registry
    ensures ValidateInput(Some(rules + [rule]), raw, messages, registry, ctx, errors)
         == ValidateInput(Some(rules), raw, messages, registry, ctx, errors)
  {
    if All(raw, IsSpace) {
      assert RequiredToken in rules + [rule] <==> RequiredToken in rules;
    } else {
      var value := Trim(raw);
      var checks := CheckAll(rules, value, registry, ctx);
      assert CheckToken(rule, value, registry, ctx) == Skipped;
      CheckAllSnoc(rules, rule, value, registry, ctx);
      ShowFailuresSkipped(checks, messages, errors);
      NonBlankVerdict(rules + [rule], raw, messages, registry, ctx, errors);
      NonBlankVerdict(rules, raw, messages, registry, ctx, errors);
    }
  }

  /** On a non-blank value the verdict is the loop's result. */
  lemma NonBlankVerdict(rules: seq<string>, raw: string, messages: Option<map<string, string>>,
                        registry: map<string, Rule>, ctx: Context, errors: seq<string>)
    requires !All(raw, IsSpace)
    ensures var r := ShowFailures(CheckAll(rules, Trim(raw), registry, ctx), messages, errors);
            ValidateInput(Some(rules), raw, messages, registry, ctx, errors) == Verdict(r.valid, r.errors, r.clearsField)
  {
    TrimEmpty(raw);
  }

  /** A skipped check at the end of the loop changes nothing. */
  lemma ShowFailuresSkipped(checks: seq<Check>, messages: Option<map<string, string>>, errors: seq<string>)
    ensures ShowFailures(checks + [Skipped], messages, errors) == ShowFailures(checks, messages, errors)
  {
    assert (checks + [Skipped])[..|checks|] == checks;
  }

  /** A token without `[` that the registry does not hold is skipped. */
  lemma UnregisteredPlainTokenSkipped(rule: string, value: string, registry: map<string, Rule>, ctx: Context)
    requires '[' !in rule && rule !in registry
    ensures CheckToken(rule, value, registry, ctx) == Skipped
  {
    ParsePlainToken(rule);
  }

  /** A token that names a registered function only as a whole, because the
      whole name holds a `[`, is skipped: the part before the `[` finds no
      function, and the whole token is not a pattern. */
  lemma BracketFunctionTokenSkipped(rule: string, value: string, registry: map<string, Rule>, ctx: Context)
    requires rule in registry && !registry[rule].Pattern?
    requires !(ParseToken(rule).name in registry && !registry[ParseToken(rule).name].Pattern?)
    ensures CheckToken(rule, value, registry, ctx) == Skipped
  {
  }

  /** `required` is not a registered rule, so on a non-blank value the token
      is passed over like any unknown name. */
  lemma RequiredTokenSkipped(value: string, custom: map<string, Rule>, ctx: Context)
    requires RequiredToken !in custom
    ensures CheckToken(RequiredToken, value, Registry(custom), ctx) == Skipped
  {
    assert RequiredToken !in BuiltinRules() by {
      assert BuiltinRules().Keys == {"alphabeticWithSpace", "validEmail", "allowedCharacters", "validName",
                                     "validMobile", "greaterThan", "lessThan", "validAmount"};
    }
    assert '[' !in RequiredToken by {
      forall i | 0 <= i < |RequiredToken| ensures RequiredToken[i] != '[' {
      }
    }
    UnregisteredPlainTokenSkipped(RequiredToken, value, Registry(custom), ctx);
  }

  /** No built-in rule name holds a `[`. */
  lemma BuiltinNamesHaveNoBracket(name: string)
    requires name in BuiltinRules()
    ensures '[' !in name
  {
    assert name in {"alphabeticWithSpace", "validEmail", "allowedCharacters", "validName",
                    "validMobile", "greaterThan", "lessThan", "validAmount"};
  }

  /** A pattern token written with a parameter, such as `validEmail[x]`, is
      never checked against the built-in rules: its name finds a pattern, not
      a function, and the whole token names nothing. */
  lemma PatternTokenWithParameterSkipped(rule: string, value: string, ctx: Context)
    requires '[' in rule
    requires ParseToken(rule).name in BuiltinRules() && BuiltinRules()[ParseToken(rule).name].Pattern?
    ensures CheckToken(rule, value, BuiltinRules(), ctx) == Skipped
  {
    if rule in BuiltinRules() {
      BuiltinNamesHaveNoBracket(rule);
    }
  }

  /** A field with a single token, on a non-blank value, is valid exactly when
      that token's check does not fail, and is emptied exactly when that check
      fails and empties it. */
  lemma SingleTokenVerdict(tok: string, raw: string, messages: Option<map<string, string>>,
                           registry: map<string, Rule>, ctx: Context, errors: seq<string>)
    requires !All(raw, IsSpace)
    ensures var c := CheckToken(tok, Trim(raw), registry, ctx);
            var v := ValidateInput(Some([tok]), raw, messages, registry, ctx, errors);
            && (v.valid <==> !Fails(c))
            && (v.clearsField <==> Fails(c) && c.clearsField)
  {
    assert [tok][0] == tok;
  }

  /** A built-in pattern rule as a field's only token, not replaced by a
      registered rule: on a non-blank value the field is valid exactly when
      the pattern matches the trimmed value, and it is never emptied. */
  lemma BuiltinPatternTokenVerdict(tok: string, raw: string, messages: Option<map<string, string>>,
                                   custom: map<string, Rule>, ctx: Context, errors: seq<string>)
    requires tok in BuiltinRules() && BuiltinRules()[tok].Pattern? && tok !in custom
    requires !All(raw, IsSpace)
    ensures var v := ValidateInput(Some([tok]), raw, messages, Registry(custom), ctx, errors);
            && v.valid == BuiltinRules()[tok].test(Trim(raw))
            && !v.clearsField
  {
    BuiltinNamesHaveNoBracket(tok);
    ParsePlainToken(tok);
    SingleTokenVerdict(tok, raw, messages, Registry(custom), ctx, errors);
  }

  /** `rules: ["validEmail"]`: a non-blank value is valid exactly when the
      trimmed value matches the email pattern. */
  lemma ValidEmailTokenVerdict(raw: string, messages: Option<map<string, string>>,
                               custom: map<string, Rule>, ctx: Context, errors: seq<string>)
    requires "validEmail" !in custom
    requires !All(raw, IsSpace)
    ensures ValidateInput(Some(["validEmail"]), raw, messages, Registry(custom), ctx, errors).valid
            == Patterns.ValidEmail(Trim(raw))
  {
    BuiltinPatternTokenVerdict("validEmail", raw, messages, custom, ctx, errors);
  }

  /** A field whose only token names a registered rule that is not a pattern,
      with no parameter: on a non-blank value the verdict is that rule's
      outcome on the trimmed value. */
  lemma PlainRuleTokenVerdict(tok: string, raw: string, messages: Option<map<string, string>>,
                              registry: map<string, Rule>, ctx: Context, errors: seq<string>)
    requires tok in registry && !registry[tok].Pattern? && '[' !in tok
    requires !All(raw, IsSpace)
    ensures var o := CallRule(registry[tok], Trim(raw), None, ctx);
            var v := ValidateInput(Some([tok]), raw, messages, registry, ctx, errors);
            && v.valid == o.pass
            && v.clearsField == (!o.pass && o.clearsField)
  {
    ParsePlainToken(tok);
    SingleTokenVerdict(tok, raw, messages, registry, ctx, errors);
  }

  /** `rules: ["validAmount"]`: a non-blank value is valid exactly when the
      amount rule accepts the trimmed value, and the field is never emptied. */
  lemma AmountTokenVerdict(raw: string, messages: Option<map<string, string>>,
                           custom: map<string, Rule>, ctx: Context, errors: seq<string>)
    requires "validAmount" !in custom
    requires !All(raw, IsSpace)
    ensures var v := ValidateInput(Some(["validAmount"]), raw, messages, Registry(custom), ctx, errors);
            && v.valid == Amount.ValidAmount(Trim(raw))
            && !v.clearsField
  {
    BuiltinNamesHaveNoBracket("validAmount");
    PlainRuleTokenVerdict("validAmount", raw, messages, Registry(custom), ctx, errors);
  }

  /** `rules: ["greaterThan[id]"]` or `["lessThan[id]"]`: a non-blank value is
      valid exactly when the date-range rule passes against the element with
      that id, and the field is emptied exactly when it fails. */
  lemma DateTokenVerdict(name: string, dir: Direction, id: string, raw: string, messages: Option<map<string, string>>,
                         custom: map<string, Rule>, ctx: Context, errors: seq<string>)
    requires (name == "greaterThan" && dir == GreaterThan) || (name == "lessThan" && dir == LessThan)
    requires name !in custom
    requires '[' !in id && ']' !in id
    requires !All(raw, IsSpace)
    ensures var o := CheckDateOrder(dir, Trim(raw), LookupById(ctx, Some(id)), ctx.parse);
            var v := ValidateInput(Some([name + "[" + id + "]"]), raw, messages, Registry(custom), ctx, errors);
            && v.valid == o.pass
            && v.clearsField == !o.pass
  {
    BuiltinNamesHaveNoBracket(name);
    ParseParameterToken(name, id);
    SingleTokenVerdict(name + "[" + id + "]", raw, messages, Registry(custom), ctx, errors);
  }

  /** A field whose one token is `name[id]`, with `name` a date-range rule of
      the registry: a non-blank value whose date is out of order with the
      referenced element's non-empty value fails, and the field is emptied. */
  lemma DateTokenOutOfOrder(name: string, dir: Direction, id: string, theirs: string, raw: string,
                            messages: Option<map<string, string>>, registry: map<string, Rule>,
                            ctx: Context, errors: seq<string>)
    requires name in registry && registry[name] == DateOrder(dir)
    requires '[' !in name && '[' !in id && ']' !in id
    requires Trim(raw) != ""
    requires LookupById(ctx, Some(id)) == Some(theirs) && theirs != ""
    requires !InOrder(dir, ctx.parse(Trim(raw)), ctx.parse(theirs))
    ensures var v := ValidateInput(Some([name + "[" + id + "]"]), raw, messages, registry, ctx, errors);
            !v.valid && v.clearsField
  {
    TrimEmpty(raw);
    ParseParameterToken(name, id);
    SingleTokenVerdict(name + "[" + id + "]", raw, messages, registry, ctx, errors);
  }

  /** A token without `[` is all name, with no parameter. */
  lemma ParsePlainToken(rule: string)
    requires '[' !in rule
    ensures ParseToken(rule) == Token(rule, None)
  {
    assert rule[..|rule|] == rule;
  }

  /** `name[param]`, with neither part holding a bracket, parses into exactly
      that name and parameter. */
  lemma ParseParameterToken(name: string, param: string)
    requires '[' !in name && '[' !in param && ']' !in param
    ensures ParseToken(name + "[" + param + "]") == Token(name, Some(param))
  {
    var rule := name + "[" + param + "]";
    var after := param + "]";
    assert rule[..|name|] == name;
    IndexOfIs(rule, '[', |name|);
    assert rule[|name| + 1..] == after;
    ClosingBracketRemoved(param);
  }

  /** The text after the `[` of `name[param]` has no second `[`, and removing
      its first `]` leaves the parameter. */
  lemma ClosingBracketRemoved(param: string)
    requires '[' !in param && ']' !in param
    ensures var after := param + "]";
            && IndexOf(after, '[') == |after|
            && RemoveFirst(after[..IndexOf(after, '[')], ']') == param
  {
    var after := param + "]";
    assert '[' !in after;
    assert after[..|after|] == after;
    assert after[..|param|] == param;
    IndexOfIs(after, ']', |param|);
    assert after[..|param|] + after[|param| + 1..] == param;
  }
}

=== FILE: sanitizers.dfy ===
/** The live sanitizers (validations.js lines 248-298) that rewrite a field's
    value while the user types, and the choice among them by the second token
    of the field's rule list (line 173). */
module Sanitizers {
  import opened Wrappers
  import opened Chars
  import opened Strings
  import Patterns
  import Amount

  const NameMaxLength: nat := 60
  const EmailMaxLength: nat := 30

  /** `s.replace(/\s{2,}/g, " ")`: every run of two or more whitespace
      characters becomes one space; a lone whitespace character stays as it is. */
  function CollapseSpaces(s: string): (r: string)
    ensures |r| <= |s|
    ensures NoAdjacentSpaces(r)
    ensures |s| > 0 ==> |r| > 0 && (IsSpace(r[0]) <==> IsSpace(s[0]))
    ensures |s| > 0 && !IsSpace(s[0]) ==> r[0] == s[0]
    decreases |s|
  {
    if |s| == 0 then []
    else if !IsSpace(s[0]) then
      [s[0]] + CollapseSpaces(s[1..])
    else
      var k := Run(s, IsSpace);
      assert k >= 1;
      (if k >= 2 then " " else s[..1]) + CollapseSpaces(s[k..])
  }

  /** Collapsing keeps a string of letters and whitespace one. */
  lemma {:induction false} CollapseKeepsLettersAndSpaces(s: string)
    requires All(s, IsLetterOrSpace)
    ensures All(CollapseSpaces(s), IsLetterOrSpace)
    decreases |s|
  {
    if |s| > 0 {
      if !IsSpace(s[0]) {
        CollapseKeepsLettersAndSpaces(s[1..]);
      } else {
        var k := Run(s, IsSpace);
        CollapseKeepsLettersAndSpaces(s[k..]);
      }
    }
  }

  /** Dropping leading whitespace does not change the non-whitespace text. */
  lemma DropSpacesKeepsText(s: string, k: nat)
    requires k <= |s| && All(s[..k], IsSpace)
    ensures Filter(IsNotSpace, s) == Filter(IsNotSpace, s[k..])
  {
    assert s == s[..k] + s[k..];
    FilterAppend(IsNotSpace, s[..k], s[k..]);
    FilterNone(IsNotSpace, s[..k]);
  }

  /** Collapsing never touches the non-whitespace characters. */
  lemma {:induction false} CollapseKeepsText(s: string)
    ensures Filter(IsNotSpace, CollapseSpaces(s)) == Filter(IsNotSpace, s)
    decreases |s|
  {
    if |s| > 0 {
      if !IsSpace(s[0]) {
        CollapseKeepsText(s[1..]);
        var r := [s[0]] + CollapseSpaces(s[1..]);
        assert r[0] == s[0] && r[1..] == CollapseSpaces(s[1..]);
      } else {
        var k := Run(s, IsSpace);
        CollapseKeepsText(s[k..]);
        var head: string := if k >= 2 then " " else s[..1];
        var r := head + CollapseSpaces(s[k..]);
        assert r[1..] == CollapseSpaces(s[k..]);
        DropSpacesKeepsText(r, 1);
        DropSpacesKeepsText(s, k);
      }
    }
  }

  /** One step of `CollapseSpaces` on a string that starts with a whitespace run. */
  lemma CollapseLeadingRun(s: string, k: nat)
    requires 0 < k <= |s| && All(s[..k], IsSpace) && (k < |s| ==> !IsSpace(s[k]))
    ensures CollapseSpaces(s) == (if k >= 2 then " " else s[..1]) + CollapseSpaces(s[k..])
  {
    RunIs(s, IsSpace, k);
    assert IsSpace(s[..k][0]);
  }

  /** One step of `CollapseSpaces` on a string that starts with a non-whitespace character. */
  lemma CollapseCons(s: string)
    requires |s| > 0 && !IsSpace(s[0])
    ensures CollapseSpaces(s) == [s[0]] + CollapseSpaces(s[1..])
  {
  }

  /** Collapsing works run by run: a string that ends in a non-whitespace
      character collapses independently of what follows it. */
  lemma {:induction false} CollapseAppend(a: string, rest: string)
    requires |a| == 0 || !IsSpace(a[|a| - 1])
    ensures CollapseSpaces(a + rest) == CollapseSpaces(a) + CollapseSpaces(rest)
    decreases |a|
  {
    if |a| == 0 {
      assert a + rest == rest;
    } else if !IsSpace(a[0]) {
      CollapseAppend(a[1..], rest);
      CollapseAppendCons(a, rest);
    } else {
      var k := Run(a, IsSpace);
      RunStopsBeforeLast(a, IsSpace);
      CollapseAppend(a[k..], rest);
      CollapseAppendRun(a, rest, k);
    }
  }

  lemma CollapseAppendCons(a: string, rest: string)
    requires |a| > 0 && !IsSpace(a[0])
    requires CollapseSpaces(a[1..] + rest) == CollapseSpaces(a[1..]) + CollapseSpaces(rest)
    ensures CollapseSpaces(a + rest) == CollapseSpaces(a) + CollapseSpaces(rest)
  {
    var s := a + rest;
    AppendSlices(a, rest, 1);
    CollapseCons(s);
    CollapseCons(a);
    Reassociate([a[0]], CollapseSpaces(s), CollapseSpaces(a), CollapseSpaces(a[1..] + rest),
      CollapseSpaces(a[1..]), CollapseSpaces(rest));
  }

  lemma CollapseAppendRun(a: string, rest: string, k: nat)
    requires 0 < k < |a| && All(a[..k], IsSpace) && !IsSpace(a[k])
    requires CollapseSpaces(a[k..] + rest) == CollapseSpaces(a[k..]) + CollapseSpaces(rest)
    ensures CollapseSpaces(a + rest) == CollapseSpaces(a) + CollapseSpaces(rest)
  {
    var s := a + rest;
    AppendSlices(a, rest, k);
    AppendSlices(a, rest, 1);
    CollapseLeadingRun(s, k);
    CollapseLeadingRun(a, k);
    var head: string := if k >= 2 then " " else a[..1];
    Reassociate(head, CollapseSpaces(s), CollapseSpaces(a), CollapseSpaces(a[k..] + rest),
      CollapseSpaces(a[k..]), CollapseSpaces(rest));
  }

  /** Cutting `a + rest` inside `a`. */
  lemma AppendSlices(a: string, rest: string, k: nat)
    requires 0 < k <= |a|
    ensures (a + rest)[..k] == a[..k] && (a + rest)[0] == a[0]
    ensures k < |a| ==> (a + rest)[k] == a[k]
    ensures (a + rest)[k..] == a[k..] + rest
  {
  }

  /** `head + (x + y) == (head + x) + y`, stated over names so that the
      collapsed strings above are never unfolded again. */
  lemma Reassociate(head: string, whole: string, left: string, tail: string, x: string, y: string)
    requires whole == head + tail && tail == x + y && left == head + x
    ensures whole == left + y
  {
  }

  /** A run of two or more whitespace characters between words becomes one
      space, and the text on either side collapses on its own. */
  lemma CollapseRun(a: string, w: string, b: string)
    requires |a| == 0 || !IsSpace(a[|a| - 1])
    requires |w| >= 2 && All(w, IsSpace)
    requires |b| == 0 || !IsSpace(b[0])
    ensures CollapseSpaces(a + w + b) == CollapseSpaces(a) + " " + CollapseSpaces(b)
  {
    var s := w + b;
    assert a + w + b == a + s;
    CollapseAppend(a, s);
    assert s[..|w|] == w && s[|w|..] == b;
    assert |w| < |s| ==> s[|w|] == b[0];
    CollapseLeadingRun(s, |w|);
    Reassociate(CollapseSpaces(a), CollapseSpaces(a + s), CollapseSpaces(a) + " ", CollapseSpaces(s),
      " ", CollapseSpaces(b));
  }

  /** A string without two whitespace characters in a row is left alone. */
  lemma {:induction false} CollapseIdentity(s: string)
    requires NoAdjacentSpaces(s)
    ensures CollapseSpaces(s) == s
    decreases |s|
  {
    if |s| > 0 {
      assert NoAdjacentSpaces(s[1..]) by {
        forall i | 0 < i < |s[1..]| ensures !(IsSpace(s[1..][i - 1]) && IsSpace(s[1..][i])) {
          assert s[1..][i - 1] == s[i] && s[1..][i] == s[i + 1];
        }
      }
      CollapseIdentity(s[1..]);
      if IsSpace(s[0]) {
        assert |s| > 1 ==> !IsSpace(s[1]);
        assert Run(s, IsSpace) == 1;
      }
      assert s == [s[0]] + s[1..];
    }
  }

  /** The first `n` characters, or all of them: `s.slice(0, n)`. */
  function Truncate(s: string, n: nat): (r: string)
    ensures |r| <= n && r <= s
    ensures |s| <= n ==> r == s
  {
    if |s| > n then s[..n] else s
  }

  /** A prefix of a string without adjacent whitespace has none either. */
  lemma PrefixNoAdjacentSpaces(s: string, n: nat)
    requires NoAdjacentSpaces(s) && n <= |s|
    ensures NoAdjacentSpaces(s[..n])
  {
    forall i | 0 < i < n ensures !(IsSpace(s[..n][i - 1]) && IsSpace(s[..n][i])) {
      assert s[..n][i - 1] == s[i - 1] && s[..n][i] == s[i];
    }
  }

  /** A value and caret position after an edit. */
  datatype Edit = Edit(value: string, caret: int)

  function Max(a: int, b: int): int {
    if a >= b then a else b
  }

  /** The `validName` sanitizer: strip everything but letters and whitespace,
      collapse whitespace runs, keep at most sixty characters, and move the
      caret left by as many characters as were removed, stopping at zero. */
  function SanitizeName(value: string, caret: int): (e: Edit)
    ensures All(e.value, IsLetterOrSpace)
    ensures NoAdjacentSpaces(e.value)
    ensures |e.value| <= NameMaxLength && |e.value| <= |value|
    ensures Filter(IsNotSpace, e.value) <= Filter(IsLetter, value)
    ensures |Filter(IsLetterOrSpace, value)| <= NameMaxLength ==> Filter(IsNotSpace, e.value) == Filter(IsLetter, value)
    ensures 0 <= e.caret <= Max(0, caret)
    ensures 0 <= caret <= |value| ==> e.caret <= |e.value|
    ensures caret >= |value| - |e.value| ==> |e.value| - e.caret == |value| - caret
    ensures caret < |value| - |e.value| ==> e.caret == 0
  {
    var v := Truncate(CollapseSpaces(Filter(IsLetterOrSpace, value)), NameMaxLength);
    SanitizedNameShape(value);
    SanitizedNameText(value);
    Edit(v, Max(0, caret - (|value| - |v|)))
  }

  /** The sanitized name holds only letters and single whitespace characters. */
  lemma SanitizedNameShape(value: string)
    ensures var v := Truncate(CollapseSpaces(Filter(IsLetterOrSpace, value)), NameMaxLength);
            All(v, IsLetterOrSpace) && NoAdjacentSpaces(v)
  {
    var letters := Filter(IsLetterOrSpace, value);
    var collapsed := CollapseSpaces(letters);
    CollapseKeepsLettersAndSpaces(letters);
    var v := Truncate(collapsed, NameMaxLength);
    assert v == collapsed[..|v|];
    forall i | 0 <= i < |v| ensures IsLetterOrSpace(v[i]) {
      assert v[i] == collapsed[i];
    }
    PrefixNoAdjacentSpaces(collapsed, |v|);
  }

  /** The sanitized name's letters are a prefix of the input's letters, and
      all of them when nothing had to be cut. */
  lemma SanitizedNameText(value: string)
    ensures var v := Truncate(CollapseSpaces(Filter(IsLetterOrSpace, value)), NameMaxLength);
            && Filter(IsNotSpace, v) <= Filter(IsLetter, value)
            && (|Filter(IsLetterOrSpace, value)| <= NameMaxLength ==> Filter(IsNotSpace, v) == Filter(IsLetter, value))
  {
    var letters := Filter(IsLetterOrSpace, value);
    var collapsed := CollapseSpaces(letters);
    var v := Truncate(collapsed, NameMaxLength);
    assert v == collapsed[..|v|];
    FilterPrefix(IsNotSpace, collapsed, |v|);
    CollapseKeepsText(letters);
    FilterBoth(IsNotSpace, IsLetterOrSpace, IsLetter, value);
  }

  /** A value that already holds only letters and single whitespace
      characters, and fits, is left as typed, with the caret where it was. */
  lemma CleanNameUnchanged(value: string, caret: int)
    requires All(value, IsLetterOrSpace) && NoAdjacentSpaces(value) && |value| <= NameMaxLength
    requires 0 <= caret
    ensures SanitizeName(value, caret) == Edit(value, caret)
  {
    CollapseIdentity(value);
  }

  /** Sanitizing a sanitized name changes nothing: neither the value, whatever
      the caret, nor the caret it was left at. */
  lemma SanitizeNameIdempotent(value: string, caret: int, anyCaret: int)
    ensures var e := SanitizeName(value, caret);
            && SanitizeName(e.value, anyCaret).value == e.value
            && SanitizeName(e.value, e.caret) == e
  {
    var e := SanitizeName(value, caret);
    CollapseIdentity(e.value);
  }

  /** A sanitized name that starts with a letter always passes the `validName`
      pattern; one that starts with whitespace never does. */
  lemma SanitizedNameMatchesPattern(value: string, caret: int)
    ensures var v := SanitizeName(value, caret).value;
            Patterns.ValidName(v) <==> |v| > 0 && IsLetter(v[0])
  {
    var v := SanitizeName(value, caret).value;
    Patterns.ValidNameIff(v);
  }

  /** The `validEmail` sanitizer: drop every whitespace character and keep at
      most thirty characters. */
  function SanitizeEmail(value: string): (r: string)
    ensures All(r, IsNotSpace)
    ensures r <= Filter(IsNotSpace, value)
    ensures |r| == if |Filter(IsNotSpace, value)| <= EmailMaxLength then |Filter(IsNotSpace, value)| else EmailMaxLength
  {
    var compact := Filter(IsNotSpace, value);
    var r := Truncate(compact, EmailMaxLength);
    assert forall i :: 0 <= i < |r| ==> r[i] == compact[i];
    r
  }

  /** Sanitizing a sanitized address changes nothing. */
  lemma SanitizeEmailIdempotent(value: string)
    ensures SanitizeEmail(SanitizeEmail(value)) == SanitizeEmail(value)
  {
  }

  /** An address the `validEmail` pattern accepts and that fits in thirty
      characters is never rewritten. */
  lemma ValidEmailUntouched(value: string)
    requires Patterns.ValidEmail(value) && |value| <= EmailMaxLength
    ensures SanitizeEmail(value) == value
  {
    Patterns.ValidEmailShape(value);
  }

  predicate IsNotDot(c: char) {
    c != '.'
  }

  /** The field value after the `validAmount` sanitizer, and the string it
      computes and only logs. */
  datatype AmountEdit = AmountEdit(value: string, logged: string)

  /** The `validAmount` sanitizer: keep `[0-9.]`, and drop every dot when
      there is more than one. The result is never written back. */
  function SanitizeAmount(value: string): (e: AmountEdit)
    ensures e.value == value
    ensures All(e.logged, Amount.IsAmountChar)
    ensures Count('.', e.logged) <= 1
    ensures Filter(IsDigit, e.logged) == Filter(IsDigit, value)
  {
    var clean := Filter(Amount.IsAmountChar, value);
    SplitCount(clean, '.');
    var dots := |Split(clean, '.')| - 1;
    FilterBoth(IsDigit, Amount.IsAmountChar, IsDigit, value);
    if dots > 1 then
      var digits := Filter(IsNotDot, clean);
      FilterKeepsProperty(IsNotDot, Amount.IsAmountChar, clean);
      FilterBoth(IsDigit, IsNotDot, IsDigit, clean);
      NoDotsCount(digits);
      AmountEdit(value, digits)
    else
      AmountEdit(value, clean)
  }

  lemma {:induction false} NoDotsCount(s: string)
    requires All(s, IsNotDot)
    ensures Count('.', s) == 0
    decreases |s|
  {
    if |s| > 0 {
      NoDotsCount(s[1..]);
    }
  }

  /** The sanitizers a field can name. */
  datatype Sanitizer = NameSanitizer | EmailSanitizer | AmountSanitizer

  /** `window[rules[1]]`: the sanitizer is chosen by the field's second rule
      token, taken whole, and only when it names one of the three global
      sanitizer functions. */
  function SanitizerFor(rules: seq<string>): (s: Option<Sanitizer>)
    ensures s.Some? ==> |rules| >= 2
    ensures s == Some(NameSanitizer) <==> |rules| >= 2 && rules[1] == "validName"
    ensures s == Some(EmailSanitizer) <==> |rules| >= 2 && rules[1] == "validEmail"
    ensures s == Some(AmountSanitizer) <==> |rules| >= 2 && rules[1] == "validAmount"
  {
    if |rules| < 2 then None
    else if rules[1] == "validName" then Some(NameSanitizer)
    else if rules[1] == "validEmail" then Some(EmailSanitizer)
    else if rules[1] == "validAmount" then Some(AmountSanitizer)
    else None
  }

  /** The field value after a sanitizer has run on what was typed. */
  function Sanitize(sanitizer: Sanitizer, typed: string, caret: int): (v: string)
    ensures sanitizer == AmountSanitizer ==> v == typed
    ensures |v| <= |typed|
  {
    match sanitizer
    case NameSanitizer => SanitizeName(typed, caret).value
    case EmailSanitizer => SanitizeEmail(typed)
    case AmountSanitizer => SanitizeAmount(typed).value
  }
}

=== FILE: strings.dfy ===
/** The JavaScript string operations the validator relies on: global
    character-class `replace(..., "")`, `split`, `trim` and the first-match
    `replace(c, "")`. */
module Strings {
  import opened Chars

  /** Every character of `s` satisfies `p`. */
  predicate All(s: string, p: char -> bool) {
    forall i :: 0 <= i < |s| ==> p(s[i])
  }

  /** `s.replace(/[^class]/g, "")`: the characters of `s` that `keep` accepts, in order. */
  function Filter(keep: char -> bool, s: string): (r: string)
    ensures |r| <= |s|
    ensures All(r, keep)
    ensures All(s, keep) ==> r == s
    decreases |s|
  {
    if |s| == 0 then []
    else if keep(s[0]) then [s[0]] + Filter(keep, s[1..])
    else Filter(keep, s[1..])
  }

  /** Filtering distributes over concatenation. */
  lemma {:induction false} FilterAppend(keep: char -> bool, a: string, b: string)
    ensures Filter(keep, a + b) == Filter(keep, a) + Filter(keep, b)
    decreases |a|
  {
    if |a| > 0 {
      assert (a + b)[1..] == a[1..] + b;
      FilterAppend(keep, a[1..], b);
    } else {
      assert a + b == b;
    }
  }

  /** Filtering keeps only characters the input had: any property of all the
      input's characters holds of all the output's. */
  lemma {:induction false} FilterKeepsProperty(keep: char -> bool, p: char -> bool, s: string)
    requires All(s, p)
    ensures All(Filter(keep, s), p)
    decreases |s|
  {
    if |s| > 0 {
      FilterKeepsProperty(keep, p, s[1..]);
    }
  }

  /** Filtering twice is filtering once by both predicates. */
  lemma {:induction false} FilterBoth(outer: char -> bool, inner: char -> bool, both: char -> bool, s: string)
    requires forall c :: both(c) <==> outer(c) && inner(c)
    ensures Filter(outer, Filter(inner, s)) == Filter(both, s)
    decreases |s|
  {
    if |s| > 0 {
      FilterBoth(outer, inner, both, s[1..]);
      if inner(s[0]) {
        var t := [s[0]] + Filter(inner, s[1..]);
        assert t[0] == s[0] && t[1..] == Filter(inner, s[1..]);
      }
    }
  }

  /** A string none of whose characters is kept filters to nothing. */
  lemma {:induction false} FilterNone(keep: char -> bool, s: string)
    requires forall i :: 0 <= i < |s| ==> !keep(s[i])
    ensures Filter(keep, s) == []
    decreases |s|
  {
    if |s| > 0 {
      FilterNone(keep, s[1..]);
    }
  }

  /** Filtering a prefix gives a prefix of the filtered string. */
  lemma FilterPrefix(keep: char -> bool, s: string, n: nat)
    requires n <= |s|
    ensures Filter(keep, s[..n]) <= Filter(keep, s)
  {
    assert s == s[..n] + s[n..];
    FilterAppend(keep, s[..n], s[n..]);
  }

  /** Number of occurrences of `c` in `s`. */
  function Count(c: char, s: string): nat
    decreases |s|
  {
    if |s| == 0 then 0 else (if s[0] == c then 1 else 0) + Count(c, s[1..])
  }

  /** `s.split(sep).length - 1` counts the separators. */
  lemma {:induction false} SplitCount(s: string, sep: char)
    ensures |Split(s, sep)| == Count(sep, s) + 1
    decreases |s|
  {
    if |s| > 0 {
      SplitCount(s[1..], sep);
    }
  }

  /** Glues `parts` back together with `sep` between neighbours: the inverse of `Split`. */
  function Join(parts: seq<string>, sep: char): string
    requires |parts| >= 1
    decreases |parts|
  {
    if |parts| == 1 then parts[0] else parts[0] + [sep] + Join(parts[1..], sep)
  }

  /** `s.split(sep)` for a one-character separator: the maximal runs between
      separators, so `""` splits to `[""]` and `"."` to `["", ""]`. */
  function Split(s: string, sep: char): (parts: seq<string>)
    ensures |parts| >= 1
    ensures forall k :: 0 <= k < |parts| ==> sep !in parts[k]
    ensures Join(parts, sep) == s
    decreases |s|
  {
    if |s| == 0 then [""]
    else
      var rest := Split(s[1..], sep);
      if s[0] == sep then
        assert s == [sep] + s[1..];
        [""] + rest
      else
        var parts := [[s[0]] + rest[0]] + rest[1..];
        assert parts[1..] == rest[1..];
        assert s == [s[0]] + s[1..];
        parts
  }

  /** Splitting a joined list gives the list back when no part holds the separator. */
  lemma {:induction false} SplitJoin(parts: seq<string>, sep: char)
    requires |parts| >= 1
    requires forall k :: 0 <= k < |parts| ==> sep !in parts[k]
    ensures Split(Join(parts, sep), sep) == parts
    decreases |parts|
  {
    if |parts| == 1 {
      SplitNoSeparator(parts[0], sep);
    } else {
      SplitJoin(parts[1..], sep);
      SplitPrefix(parts[0], Join(parts[1..], sep), sep);
      assert [parts[0]] + parts[1..] == parts;
    }
  }

  /** A string without the separator splits to itself. */
  lemma {:induction false} SplitNoSeparator(s: string, sep: char)
    requires sep !in s
    ensures Split(s, sep) == [s]
    decreases |s|
  {
    if |s| > 0 {
      assert sep !in s[1..] by {
        forall i | 0 <= i < |s[1..]| ensures s[1..][i] != sep {
          assert s[1..][i] == s[i + 1];
        }
      }
      SplitNoSeparator(s[1..], sep);
      assert s == [s[0]] + s[1..];
    }
  }

  /** The first part is everything before the first separator. */
  lemma {:induction false} SplitPrefix(a: string, rest: string, sep: char)
    requires sep !in a
    ensures Split(a + [sep] + rest, sep) == [a] + Split(rest, sep)
    decreases |a|
  {
    var s := a + [sep] + rest;
    if |a| == 0 {
      assert s == [sep] + rest;
      assert s[1..] == rest;
    } else {
      assert s[1..] == a[1..] + [sep] + rest;
      assert sep !in a[1..] by {
        forall i | 0 <= i < |a[1..]| ensures a[1..][i] != sep {
          assert a[1..][i] == a[i + 1];
        }
      }
      SplitPrefix(a[1..], rest, sep);
      assert [a[0]] + a[1..] == a;
    }
  }

  /** `s.indexOf(c)`, with `|s|` standing for "not found". */
  function IndexOf(s: string, c: char): (i: nat)
    ensures i <= |s|
    ensures c !in s[..i]
    ensures i < |s| <==> c in s
    ensures i < |s| ==> s[i] == c
    decreases |s|
  {
    if |s| == 0 then 0
    else if s[0] == c then 0
    else
      assert s == [s[0]] + s[1..];
      assert s[..1 + IndexOf(s[1..], c)] == [s[0]] + s[1..][..IndexOf(s[1..], c)];
      1 + IndexOf(s[1..], c)
  }

  /** `IndexOf` finds the first occurrence and no other. */
  lemma IndexOfIs(s: string, c: char, i: nat)
    requires i <= |s| && c !in s[..i]
    requires i < |s| ==> s[i] == c
    ensures IndexOf(s, c) == i
  {
  }

  /** `s.replace(c, "")` with a string pattern: removes the first occurrence of `c` only. */
  function RemoveFirst(s: string, c: char): (r: string)
    ensures var i := IndexOf(s, c); r == if i < |s| then s[..i] + s[i + 1..] else s
    decreases |s|
  {
    if |s| == 0 then s
    else if s[0] == c then s[1..]
    else
      var j := IndexOf(s[1..], c);
      assert IndexOf(s, c) == 1 + j;
      assert j < |s| - 1 ==> [s[0]] + (s[1..][..j] + s[1..][j + 1..]) == s[..j + 1] + s[j + 2..];
      assert [s[0]] + s[1..] == s;
      [s[0]] + RemoveFirst(s[1..], c)
  }

  /** `s.trimEnd()` */
  function TrimEnd(s: string): (r: string)
    ensures |r| <= |s| && r == s[..|r|]
    ensures All(s[|r|..], IsSpace)
    ensures |r| > 0 ==> !IsSpace(r[|r| - 1])
    decreases |s|
  {
    if |s| > 0 && IsSpace(s[|s| - 1]) then
      var r := TrimEnd(s[..|s| - 1]);
      assert s[|r|..] == s[..|s| - 1][|r|..] + [s[|s| - 1]];
      r
    else s
  }

  /** `s.trim()`: `s` without its leading and trailing whitespace. The
      leading whitespace is the run `Run(s, IsSpace)`. */
  function Trim(s: string): (r: string)
    ensures var i := Run(s, IsSpace);
            && i + |r| <= |s| && r == s[i..i + |r|] && All(s[i + |r|..], IsSpace)
    ensures |r| > 0 ==> !IsSpace(r[0]) && !IsSpace(r[|r| - 1])
  {
    var i := Run(s, IsSpace);
    var t := s[i..];
    var r := TrimEnd(t);
    TrimSlices(s, t, r, i);
    assert |r| > 0 ==> r[0] == s[i];
    r
  }

  /** Where the trimmed string sits inside the original. */
  lemma TrimSlices(s: string, t: string, r: string, i: nat)
    requires i <= |s| && t == s[i..] && |r| <= |t| && r == t[..|r|]
    ensures r == s[i..i + |r|]
    ensures s[i + |r|..] == t[|r|..]
  {
  }

  /** A value trims to the empty string exactly when it is all whitespace. */
  lemma TrimEmpty(s: string)
    ensures Trim(s) == "" <==> All(s, IsSpace)
  {
    var i := Run(s, IsSpace);
    if Trim(s) == "" {
      assert s == s[..i] + s[i..];
    }
  }

  /** Trimming twice is trimming once. */
  lemma TrimIdempotent(s: string)
    ensures Trim(Trim(s)) == Trim(s)
  {
  }

  /** Length of the longest prefix of `s` whose characters all satisfy `p`. */
  function Run(s: string, p: char -> bool): (n: nat)
    ensures n <= |s|
    ensures All(s[..n], p)
    ensures n < |s| ==> !p(s[n])
    decreases |s|
  {
    if |s| > 0 && p(s[0]) then
      assert s[..1 + Run(s[1..], p)] == [s[0]] + s[1..][..Run(s[1..], p)];
      1 + Run(s[1..], p)
    else 0
  }

  /** A run stops before a last character that `p` rejects. */
  lemma {:induction false} RunStopsBeforeLast(s: string, p: char -> bool)
    requires |s| > 0 && !p(s[|s| - 1])
    ensures Run(s, p) < |s|
    decreases |s|
  {
    if |s| > 1 && p(s[0]) {
      assert s[1..][|s| - 2] == s[|s| - 1];
      RunStopsBeforeLast(s[1..], p);
    }
  }

  /** `Run` is the one length with a `p`-prefix that `p` cannot extend. */
  lemma {:induction false} RunIs(s: string, p: char -> bool, n: nat)
    requires n <= |s| && All(s[..n], p)
    requires n < |s| ==> !p(s[n])
    ensures Run(s, p) == n
    decreases n
  {
    if n > 0 {
      assert p(s[..n][0]);
      assert s[1..][..n - 1] == s[..n][1..];
      RunIs(s[1..], p, n - 1);
    }
  }

  /** No two neighbouring characters are both whitespace. */
  predicate NoAdjacentSpaces(s: string) {
    forall i :: 0 < i < |s| ==> !(IsSpace(s[i - 1]) && IsSpace(s[i]))
  }
}

=== FILE: wrappers.dfy ===
/** Optional values: JavaScript's `undefined` next to a present value. */
module Wrappers {

  datatype Option<+T> = None | Some(value: T) {

    /** Returns the value held in Some, or `default` when None. */
    function GetOr(default: T): T {
      match this
      case Some(v) => v
      case None => default
    }
  }
}
